=== FILE: README.md ===
# Stock return calculator: the return engine in Dafny

This project models the return-calculation engine of `calculator.js`: the part of
the stock-return calculator that turns a CSV price file, an investment amount, an
investment window and a stock's corporate actions into a report. The browser code
around it (form handling, fetching files, rendering results and charts) is left out.

The engine has four pieces, each a module here:

- **PriceSeries** (`parseCSV`) reads the CSV text. It requires `Date` and `Close`
  columns and drops rows that have too few columns, an invalid date or a
  non-numeric close. It fails when nothing survives and otherwise returns the
  samples sorted by date. A date the host cannot parse gets the three-part
  fallback: a four-character first part means year-month-day, anything else
  means day-month-year.
- **Resolver** (`findClosestPrice`) picks the sample nearest in time to a date.
  It scans linearly and keeps the first of several equally near samples. There
  is no distance cap.
- **Adjuster** and **Returns** (`calculateReturns`):
  - buy `amount / startClose` shares;
  - keep the corporate actions dated inside the window, both ends included, and
    sort them by date;
  - multiply the share count by each action's factor, recording an append-only
    timeline that opens with the "Initial Investment" entry;
  - value the final count at the end price and derive the absolute return, the
    return percentage and the length of the window in years.
- **Growth** (`generateGrowthDataWithAdjustments` and the legacy
  `generateGrowthData`) builds the monthly chart. It keeps the samples inside
  the window and emits the first sample of each new month. Each point is valued
  at the share count of the last timeline entry dated at or before it.

Supporting modules:

- **Text**: JavaScript's `trim`, `split` and `indexOf`.
- **Seqs**: `filter` by an interval of keys, and the stable sort that
  `Array.prototype.sort` performs. Every stable sort gives the same output for
  the same key, so the model uses insertion sort.
- **Domain**: the records.
- **Wrappers**: `Option` and `Result`.

Representation:

- Dates are millisecond timestamps (`int`).
- Prices, share counts and factors are exact `real`s.
- The host's behaviour is passed in as parameters:
  - native date parsing, `parseFloat` and `parseInt` (the `Builtins` record);
  - the local-time calendar `cal`, which gives the year and month of a timestamp.

The main results:

- `Returns.CalculateReturns` fails exactly when there are fewer than two samples
  or the resolved start price is not positive.
- `Returns.FinalValueClosedForm`: the final value equals the purchased shares,
  times the product of the in-window factors, valued at the end price.
- `Returns.ActionOrderIrrelevant`: the order in which actions are listed does
  not change the report, chart included.
- `Adjuster.TimelineChain` is the timeline invariant `shares[k] = shares[k-1] * factor[k]`.
- `Adjuster.TimelineSharesAt` states what the growth chart's share lookup finds.
- `Growth.EmitIsChart` shows that the month-thinning loop equals an independent
  reference definition.

The timeline itself is not fully independent of input order. Actions that share
a date keep the order in which they were listed, because the sort is stable.
`Adjuster.RelevantDependsOnlyOnDays` states exactly how far the independence
goes: only the order within a single day matters.

## Model

| member | source | states |
|---|---|---|
| Text.Trim | calculator.js:147 | `trim` removes exactly the leading and trailing runs of ECMAScript white space and line terminators; what is left neither starts nor ends with one and is the middle slice of the input |
| Text.TrimIdempotent | calculator.js:166 | trimming an already trimmed string changes nothing |
| Text.Split | calculator.js:147-148 | `split` on a separator set gives one more part than there are separators, and no part contains a separator |
| Text.SplitJoin | calculator.js:161 | joining the parts of a one-character split with that character restores the original line |
| Text.SplitLeadingPart | calculator.js:179 | a separator-free lead followed by a separator becomes the first part, and the rest splits on its own |
| Text.IndexOf | calculator.js:150-151 | `indexOf` is -1 exactly when the name is absent, and otherwise the first position holding it |
| PriceSeries.FallbackFields | calculator.js:179-189 | the fallback yields fields only for exactly three parts that `parseInt` all reads; a four-character first part is the year, otherwise the third part is; the month is made zero-based |
| PriceSeries.ThreeParts | calculator.js:179 | three separator-free parts joined by `-` or `/` split back into those three parts |
| PriceSeries.FallbackReadsYearFirst | calculator.js:182-184 | `yyyy-mm-dd` or `yyyy/mm/dd` text reads as (year, month - 1, day) |
| PriceSeries.FallbackReadsDayFirst | calculator.js:185-188 | any other three-part date reads day first, as (third part, month - 1, first part) |
| PriceSeries.FallbackDayMonthAmbiguous | calculator.js:185-188 | swapping the first two parts swaps the day and the month that are read, so `mm/dd/yyyy` and `dd/mm/yyyy` cannot be told apart |
| PriceSeries.ParseRow | calculator.js:161-200 | a line yields a sample exactly when it has enough columns, its trimmed date parses (natively or by the fallback) and its close is not `NaN`; the sample carries that date and close |
| PriceSeries.ParseRowsMember | calculator.js:160-206 | a sample is among the parsed rows exactly when some data line parses to it |
| PriceSeries.ParseCsv | calculator.js:146-214 | fails with the schema error exactly when `Date` or `Close` is missing from the header, and with the empty-data error exactly when no row survives; otherwise returns a non-empty, date-sorted permutation of the surviving rows |
| PriceSeries.ParseCsvMembers | calculator.js:160-213 | a sample is in the parsed series exactly when some line after the header parses to it |
| PriceSeries.ParseCsvStable | calculator.js:213 | samples that share a date keep their file order after the sort |
| Seqs.Within | calculator.js:371-373 | the interval filter keeps only elements whose key lies in the closed interval and never grows the sequence |
| Seqs.WithinMember | calculator.js:251-254 | an element survives the filter exactly when it is in the input and its key is in the interval |
| Seqs.WithinCount | calculator.js:343-345 | the filter keeps every copy of an in-interval value and no copy of any other |
| Seqs.WithinPermutation | calculator.js:251-254 | filtering two permutations of each other gives two permutations of each other |
| Seqs.WithinConcat | calculator.js:371-373 | filtering distributes over concatenation |
| Seqs.WithinWithin | calculator.js:251-254 | filtering by two intervals in turn is filtering by their intersection |
| Seqs.SortBy | calculator.js:257 | the sort returns a permutation of its input |
| Seqs.SortBySorts | calculator.js:257 | the sort's output is ordered by key |
| Seqs.SortBySorted | calculator.js:384 | sorting an already sorted sequence leaves it unchanged |
| Seqs.SortByStable | calculator.js:213 | the sort is stable: elements with equal keys keep their input order |
| Seqs.SortedDeterminedBySlices | calculator.js:257 | a sorted sequence is determined by its per-key slices |
| Resolver.ScanClosest | calculator.js:326-333 | the loop with strict `<` ends on a sample at least as near as every sample and strictly nearer than every sample before it |
| Resolver.ClosestIndex | calculator.js:318-336 | the chosen position is at least as near as every sample and strictly nearer than every earlier one |
| Resolver.FindClosest | calculator.js:318-336 | `null` exactly for an empty series; otherwise a sample of the series whose distance to the target is minimal |
| Resolver.ClosestIndexUnique | calculator.js:329-332 | the resolver's choice is the only position that is minimal and strictly nearer than all before it |
| Resolver.ClosestTieGoesToFirst | calculator.js:329 | a sample as near as the chosen one never comes after it in the series |
| Resolver.ClosestBeyondEnd | calculator.js:318-336 | with no distance cap, a target past the end of a sorted series resolves to a sample on its last date |
| Adjuster.FactorProductConcat | calculator.js:264-266 | the product of the factors of a concatenation is the product of the two products |
| Adjuster.FactorProductPermutation | calculator.js:264-266 | the product of the factors does not depend on the order of the actions |
| Adjuster.ApplyActionsConcat | calculator.js:264-275 | replaying `a + b` is replaying `b` on the result of replaying `a` |
| Adjuster.ApplyActionsProduct | calculator.js:264-266 | the running count after the actions is the initial count times the product of their factors |
| Adjuster.ApplyActionsPermutation | calculator.js:264-266 | the running count does not depend on the order the actions are applied in |
| Adjuster.Replay | calculator.js:264-275 | one appended entry per action, carrying the action's date, description and factor |
| Adjuster.ReplayEntry | calculator.js:265-273 | entry i holds the count after the first i+1 actions and records the count after the first i as `prevShares` |
| Adjuster.BuildTimeline | calculator.js:260-275 | the timeline has one entry more than there are actions; the first is the "Initial Investment" at the start date with the purchased shares and no factor; entry i carries action i-1's date, description and factor |
| Adjuster.TimelineShares | calculator.js:264-275 | entry k holds the count after the first k actions, and records the count before it |
| Adjuster.TimelineChain | calculator.js:265-273 | each entry after the first has `prevShares` equal to the previous entry's shares and `shares = prevShares * factor` |
| Adjuster.FinalShares | calculator.js:266 | the last entry holds the count after all actions, the `sharesPurchased` left by the loop |
| Adjuster.TimelineSorted | calculator.js:257-275 | with sorted actions dated no earlier than the start, the timeline's dates never decrease |
| Adjuster.LastAtOrBefore | calculator.js:390-399 | reference search from the end: the last entry after the first dated at or before `t`, or 0 when there is none |
| Adjuster.LastAtOrBeforeUnique | calculator.js:390-399 | only one position satisfies the reference's two properties |
| Adjuster.WalkSharesLast | calculator.js:393-399 | on a date-sorted timeline, the forward walk with early `break` ends on the reference entry's count |
| Adjuster.SharesAtIsLastAtOrBefore | calculator.js:390-399 | the growth loop's share lookup gives the count of the last entry dated at or before the sample, or the initial entry's count |
| Adjuster.TimelineWithin | calculator.js:390-399 | the entries a lookup at `t` passes are exactly the actions dated from the start up to `t` |
| Adjuster.TimelineSharesPermutation | calculator.js:390-399 | timelines of two orderings of the same sorted in-window actions give the same count at every date |
| Adjuster.TimelineSharesAt | calculator.js:384-399 | on the timeline of sorted in-window actions, the shares at `t` are the initial shares replayed through exactly the actions dated from the start to `t` |
| Adjuster.SharesAtEnd | calculator.js:390-399 | when every action is dated by `end`, the lookup at `end` gives the final count |
| Adjuster.RelevantActions | calculator.js:250-258 | the replayed actions are date-sorted, dated within the window with both ends included, and a permutation of the filtered input |
| Adjuster.RelevantMember | calculator.js:251-254 | an action is replayed exactly when it is listed and dated within the window |
| Adjuster.RelevantSlice | calculator.js:251-257 | the replayed actions of one day are that day's listed actions, in input order, when the day is in the window |
| Adjuster.RelevantDependsOnlyOnDays | calculator.js:251-257 | two action lists with the same actions, in the same order, on every day select the same replay sequence |
| Adjuster.RelevantCountPermutation | calculator.js:251-275 | any permutation of the action list gives the same final count |
| Growth.PointFor | calculator.js:389-407 | a chart point carries its sample's date and the timeline's shares for that date, valued at the sample's close |
| Growth.ChartExtends | calculator.js:401-408 | the chart of n samples is the chart of n-1, plus a point for the last sample when that sample opens a month |
| Growth.EmitFromIsChart | calculator.js:386-409 | the loop, started with no month compared, equals the reference chart of the first n samples followed by the loop from n |
| Growth.EmitIsChart | calculator.js:386-409 | the month-thinning loop computes the reference chart: one point per sample whose month differs from the previous sample's |
| Growth.ChartEndsInLastMonth | calculator.js:401-408 | the chart of a non-empty prefix ends in the month of its last sample |
| Growth.ChartCoversMonths | calculator.js:401-408 | every sample's month has a chart point |
| Growth.ChartMonthsChange | calculator.js:401-402 | consecutive chart points lie in different months |
| Growth.ChartMonthsBounded | calculator.js:386-408 | on sorted samples under a monotone calendar, no point lies after the last sample's month |
| Growth.ChartMonthsIncrease | calculator.js:386-408 | on sorted samples under a monotone calendar, the points' months strictly increase |
| Growth.GrowthMonthsIncrease | calculator.js:370-409 | on a date-sorted series under a monotone calendar, the growth chart has one point per month, in strictly increasing month order |
| Growth.ChartPointsAreSamples | calculator.js:401-407 | every chart point is the point of a sample that opens a month |
| Growth.OpensMonthIsFirst | calculator.js:401-402 | on sorted samples under a monotone calendar, a sample that opens a month lies after every sample of earlier months only, so it is the first sample of its month |
| Growth.ChartSize | calculator.js:401-408 | the chart has at most one point per sample, and is empty exactly when there are no samples |
| Growth.GrowthAsWritten | calculator.js:366-411 | the chart as written, with the `-1` sentinel, never has more points than the in-window samples |
| Growth.ChartSameShares | calculator.js:386-408 | two timelines that give every sample the same count give the same reference chart |
| Growth.GrowthSameShares | calculator.js:366-411 | two sorted timelines that agree on the count at every date give the same growth chart |
| Growth.GenerateGrowth | calculator.js:366-411 | the chart is empty exactly when no sample lies in the window, has at most one point per in-window sample, and equals the reference chart over the date-sorted timeline |
| Growth.GrowthPointsInWindow | calculator.js:371-407 | every chart point is dated inside the window and is the point of an in-window sample that opens a month |
| Growth.AsWrittenAgrees | calculator.js:381 | the sentinel start and the corrected start agree unless the first in-window sample's month key is -1 |
| Growth.SentinelDropsFirstMonth | calculator.js:381 | a window whose only sample falls in December of year -1 gets an empty chart as written, but a one-point chart when corrected |
| Growth.LegacyGrowth | calculator.js:338-364 | the legacy chart never has more points than the in-window samples |
| Growth.PointForSingle | calculator.js:390 | with only the purchase entry, a sample is valued at the purchased shares |
| Growth.LegacyFromMatches | calculator.js:349-361 | the legacy loop matches the adjusted loop run on a one-entry timeline, point for point |
| Growth.LegacyIsUnadjustedGrowth | calculator.js:338-364 | the legacy chart is the adjusted chart, as written, for a timeline holding only the purchase: same dates and values, shares never moving |
| Returns.Purchased | calculator.js:244 | the purchased shares cost exactly the amount at the start close |
| Returns.PercentOf | calculator.js:282 | the percentage times the amount is one hundred times the gain |
| Returns.Summarise | calculator.js:277-285 | the final value is the last timeline count at the end close, the absolute return is the final value minus the amount, and `yearsDiff` times the milliseconds of a 365.25-day year is the window's length |
| Returns.CalculateReturns | calculator.js:216-316 | fails with insufficient data exactly when there are fewer than two samples, and otherwise fails exactly when the resolved start close is not positive; on success each price is the first sample at minimal distance from its date (the strict `<` of calculator.js:329), both are nearest samples, `yearsDiff` times ms-per-year is the window length, the chart is the monthly growth chart of the purchase timeline over the sorted in-window actions, and the amount, dates, absolute return and percentage are related as the source derives them |
| Returns.FinalValueReplaysActions | calculator.js:243-278 | the final value is the purchased shares, replayed through the date-sorted in-window actions, valued at the end price |
| Returns.ReplayedValue | calculator.js:264-278 | a value of replayed shares equals the value of the shares scaled by the product of the factors, in any order |
| Returns.FinalValueClosedForm | calculator.js:244-278 | the final value is `amount / startClose` times the product of the factors of the actions dated in `[start, end]`, valued at the end close |
| Returns.NoActionsBuyAndHold | calculator.js:244-278 | with no action dated in the window, the final value is `amount / startClose` valued at the end close |
| Returns.PercentSign | calculator.js:282 | a percentage of a positive amount has the sign of the gain |
| Returns.SignOfReport | calculator.js:281-282 | a report's percentage is positive exactly when the final value exceeds the amount, and zero exactly when they are equal |
| Returns.ReturnSign | calculator.js:278-282 | the return percentage is positive exactly when the holding grew, and zero exactly when it kept its value |
| Returns.ActionOrderIrrelevant | calculator.js:250-315 | listing the same actions in any order gives the same result: same final value, absolute return and percentage, and the same chart (the timeline may order same-day actions differently, but the count at every date is the same) |
| Returns.PermutedTimelines | calculator.js:250-278 | timelines built from two orderings of the same sorted in-window actions are sorted, end in the same count, and agree on the count at every date |
| Returns.SameCountsSameSummary | calculator.js:278-315 | two sorted timelines with the same final count and the same count at every date give the same report |
| Returns.SameDaysSameReport | calculator.js:250-315 | action lists that agree, on every day, on that day's actions in order produce the same report, chart included |
| Returns.GrowthSharesFollowActions | calculator.js:294-300 | every chart point's shares are the purchased shares replayed through exactly the in-window actions dated up to the point |

## Left out

- Native date parsing (`new Date(string)` and `new Date(y, m, d)`), `parseFloat` and
  `parseInt` are host behaviour. They enter as the functions of `PriceSeries.Builtins`.
  An invalid date or `NaN` is `None`.
- `getMonth()` and `getFullYear()` read the host's local time zone. They enter as the
  calendar function `cal`. The ordering lemmas of Growth assume the calendar is
  monotone (`Growth.MonotoneCalendar`). A real local-time calendar is monotone
  except across a backward offset change at a month boundary.
- The CAGR and the fixed-deposit comparison (calculator.js:287-291) use `Math.pow`
  with real exponents. Exact reals cannot express that, so `Returns.Report` has no
  `cagr` or `fdComparison` field. The division by `yearsDiff` there is also
  unguarded when the window is empty.
- IEEE floating point: rounding, `Infinity` and `NaN` arithmetic. Prices, shares and
  factors are exact reals. Every finite distance beats the `Infinity` seed of
  `findClosestPrice`, so the first sample is always taken.
- String lengths count code points rather than UTF-16 code units. This matters only
  for the four-character test at calculator.js:182 on text outside the Basic
  Multilingual Plane.
- Returns.CalculateReturns: start and end are always valid timestamps. An empty
  date field gives an Invalid Date (calculator.js:45-46, with no date check at 48),
  and `toISOString()` at calculator.js:223 then throws a `RangeError`; that throw is
  not modelled.
- Returns.CalculateReturns: the `!startPrice` and `!endPrice` checks
  (calculator.js:229-235) have no error case. They run only after line 223, so both
  dates are valid, and with two or more samples `findClosestPrice` always returns a
  sample. `!stockData` is subsumed by the length check.
- Returns.CalculateReturns: the chart in the report is the corrected
  `Growth.GenerateGrowth`, not the `-1` sentinel of calculator.js:381 and 401. The
  two differ only when the first in-window sample falls in December of year -1
  (`Growth.AsWrittenAgrees`); see Findings.
- Returns.CalculateReturns: requires a positive amount. The form handler rejects any
  other amount before the call (calculator.js:48).
- Growth.GenerateGrowth: requires a non-empty timeline. The source reads
  `shareAdjustments[0]` unguarded, and its only caller always passes the purchase
  entry.
- Action dates enter as timestamps. The model does not parse them
  (`new Date(action.date)` at calculator.js:252 and 269).
- The action list is a parameter. The source looks it up in a global, keyed by the
  selected stock (calculator.js:247-248).
- The try/catch around each row only records the line number for the error message.
  Logging (`console.*`), error-message texts, fetching, the DOM, result formatting
  and Chart.js are presentation or I/O.

## Findings

| source | as written | input that shows it | evidently intended | confidence | as-written member | corrected member |
|---|---|---|---|---|---|---|
| calculator.js:381 | `currentMonth` starts at the sentinel `-1`, which is also the month key `getMonth() + getFullYear() * 12` of December of year -1 | a window whose first in-window sample falls in December of year -1 (11 + (-1) * 12 = -1): that sample is not emitted, and a window holding only that sample gets an empty chart | the first in-window sample always opens a month ("no month yet" distinct from every real month) | not executed | Growth.GrowthAsWritten, Growth.SentinelDropsFirstMonth | Growth.GenerateGrowth, Growth.EmitIsChart, Growth.AsWrittenAgrees |

The legacy `generateGrowthData` (calculator.js:349) uses the same sentinel.
`Growth.LegacyGrowth` keeps it as written. Dates in year -1 are far outside any
price file, so the discrepancy is theoretical. The rest of the model uses the
corrected start.

=== FILE: adjuster.dfy ===
/** The corporate-action adjuster (calculator.js:243-275 and 384-399): replays
    the in-range actions, in date order, on the purchased share count, keeps the
    append-only timeline of counts, and answers "how many shares were held at
    date t" from that timeline. */
module Adjuster {
  import opened Wrappers
  import opened Seqs
  import opened Domain

  const InitialEvent: string := "Initial Investment"

  /** Product of the factors of `actions`. */
  function FactorProduct(actions: seq<Action>): real {
    if |actions| == 0 then 1.0 else actions[0].factor * FactorProduct(actions[1..])
  }

  lemma {:induction false} FactorProductConcat(a: seq<Action>, b: seq<Action>)
    ensures FactorProduct(a + b) == FactorProduct(a) * FactorProduct(b)
  {
    if |a| == 0 {
      assert a + b == b;
    } else {
      assert (a + b)[1..] == a[1..] + b;
      FactorProductConcat(a[1..], b);
    }
  }

  /** The product does not depend on the order of the actions. */
  lemma {:induction false} FactorProductPermutation(a: seq<Action>, b: seq<Action>)
    requires multiset(a) == multiset(b)
    ensures FactorProduct(a) == FactorProduct(b)
    decreases |a|
  {
    if |a| == 0 {
      assert |b| == |multiset(b)| == 0;
    } else {
      assert a[0] in multiset(b);
      var j :| 0 <= j < |b| && b[j] == a[0];
      var rest := b[..j] + b[j + 1..];
      RemoveOne(a, b, j);
      FactorProductPermutation(a[1..], rest);
      FactorProductRemove(b, j);
    }
  }

  /** Taking the same element out of two permutations of each other leaves permutations. */
  lemma RemoveOne(a: seq<Action>, b: seq<Action>, j: nat)
    requires multiset(a) == multiset(b) && |a| > 0 && j < |b| && b[j] == a[0]
    ensures multiset(a[1..]) == multiset(b[..j] + b[j + 1..])
  {
    MultisetRemove(a, 0);
    assert a[..0] + a[1..] == a[1..];
    MultisetRemove(b, j);
    MultisetCancel(multiset(a[1..]), multiset(b[..j] + b[j + 1..]), a[0]);
  }

  /** The product of a sequence with one more action in front. */
  lemma FactorProductCons(x: Action, s: seq<Action>)
    ensures FactorProduct([x] + s) == x.factor * FactorProduct(s)
  {
    assert ([x] + s)[1..] == s;
  }

  /** Moving one action to the front does not change the product. */
  lemma {:induction false} FactorProductRemove(b: seq<Action>, j: nat)
    requires j < |b|
    ensures FactorProduct(b) == b[j].factor * FactorProduct(b[..j] + b[j + 1..])
  {
    assert b == b[..j] + ([b[j]] + b[j + 1..]);
    FactorProductConcat(b[..j], [b[j]] + b[j + 1..]);
    FactorProductCons(b[j], b[j + 1..]);
    MulEq(FactorProduct(b[..j]), FactorProduct([b[j]] + b[j + 1..]), b[j].factor * FactorProduct(b[j + 1..]));
    MulSwap(FactorProduct(b[..j]), b[j].factor, FactorProduct(b[j + 1..]));
    FactorProductConcat(b[..j], b[j + 1..]);
    MulEq(b[j].factor, FactorProduct(b[..j]) * FactorProduct(b[j + 1..]), FactorProduct(b[..j] + b[j + 1..]));
  }

  /** The running count after applying `actions` in order to `shares`, as the
      `forEach` at calculator.js:264-275 updates `sharesPurchased`: the count after
      all but the last action, times the last action's factor. */
  function ApplyActions(shares: real, actions: seq<Action>): real
    decreases |actions|
  {
    if |actions| == 0 then shares
    else ApplyActions(shares, actions[..|actions| - 1]) * actions[|actions| - 1].factor
  }

  lemma {:induction false} ApplyActionsConcat(shares: real, a: seq<Action>, b: seq<Action>)
    ensures ApplyActions(shares, a + b) == ApplyActions(ApplyActions(shares, a), b)
    decreases |b|
  {
    if |b| == 0 {
      assert a + b == a;
    } else {
      var ab := a + b;
      var init := b[..|b| - 1];
      assert ab[..|ab| - 1] == a + init;
      assert ab[|ab| - 1] == b[|b| - 1];
      ApplyActionsConcat(shares, a, init);
      MulEq2(ApplyActions(shares, a + init), ApplyActions(ApplyActions(shares, a), init),
             ab[|ab| - 1].factor, b[|b| - 1].factor);
    }
  }

  /** The entries the `forEach` at calculator.js:264-275 appends, starting from
      `shares` held: the entries for all but the last action, then one for the
      last action recording the running count before and after it. */
  function Replay(shares: real, actions: seq<Action>): (r: seq<Adjustment>)
    ensures |r| == |actions|
    ensures forall i :: 0 <= i < |r| ==>
      && r[i].date == actions[i].date
      && r[i].event == actions[i].description
      && r[i].factor == Some(actions[i].factor)
    decreases |actions|
  {
    if |actions| == 0 then []
    else
      var init := actions[..|actions| - 1];
      var a := actions[|actions| - 1];
      Replay(shares, init)
        + [Adjustment(a.date, ApplyActions(shares, actions), a.description, Some(a.factor),
                      Some(ApplyActions(shares, init)))]
  }

  /** The `i`th replayed entry records the `i`th action and the running counts
      before and after it. */
  lemma {:induction false} ReplayEntry(shares: real, actions: seq<Action>, i: nat)
    requires i < |actions|
    ensures Replay(shares, actions)[i]
      == Adjustment(actions[i].date, ApplyActions(shares, actions[..i + 1]), actions[i].description,
                    Some(actions[i].factor), Some(ApplyActions(shares, actions[..i])))
    decreases |actions|
  {
    var init := actions[..|actions| - 1];
    if i == |actions| - 1 {
      assert actions[..i + 1] == actions;
    } else {
      ReplayEntry(shares, init, i);
      assert init[..i + 1] == actions[..i + 1];
      assert init[..i] == actions[..i];
    }
  }

  /** Applying the actions one by one scales the count by the product of their factors. */
  lemma {:induction false} ApplyActionsProduct(shares: real, actions: seq<Action>)
    ensures ApplyActions(shares, actions) == shares * FactorProduct(actions)
    decreases |actions|
  {
    if |actions| > 0 {
      var n := |actions|;
      var init := actions[..n - 1];
      var last := actions[n - 1];
      ApplyActionsProduct(shares, init);
      assert actions == init + [last];
      FactorProductConcat(init, [last]);
      assert FactorProduct([last]) == last.factor;
      MulEq2(ApplyActions(shares, init), shares * FactorProduct(init), last.factor, last.factor);
      MulAssoc(shares, FactorProduct(init), last.factor);
      MulEq(shares, FactorProduct(actions), FactorProduct(init) * last.factor);
    } else {
      var one := FactorProduct(actions);
      assert one == 1.0;
      assert shares * one == shares;
    }
  }

  /** The running count does not depend on the order the actions are applied in. */
  lemma ApplyActionsPermutation(shares: real, a: seq<Action>, b: seq<Action>)
    requires multiset(a) == multiset(b)
    ensures ApplyActions(shares, a) == ApplyActions(shares, b)
  {
    FactorProductPermutation(a, b);
    ApplyActionsSameProduct(shares, a, b);
  }

  lemma ApplyActionsSameProduct(shares: real, a: seq<Action>, b: seq<Action>)
    requires FactorProduct(a) == FactorProduct(b)
    ensures ApplyActions(shares, a) == ApplyActions(shares, b)
  {
    ApplyActionsProduct(shares, a);
    ApplyActionsProduct(shares, b);
    MulEq(shares, FactorProduct(a), FactorProduct(b));
  }

  /** The whole timeline (calculator.js:260-275): the purchase, then one entry per action. */
  function BuildTimeline(start: int, shares: real, actions: seq<Action>): (tl: seq<Adjustment>)
    ensures |tl| == |actions| + 1
    ensures tl[0] == Adjustment(start, shares, InitialEvent, None, None)
    ensures forall i :: 1 <= i < |tl| ==>
      && tl[i].date == actions[i - 1].date
      && tl[i].event == actions[i - 1].description
      && tl[i].factor == Some(actions[i - 1].factor)
  {
    [Adjustment(start, shares, InitialEvent, None, None)] + Replay(shares, actions)
  }

  /** Each entry holds the running count after the actions replayed so far and,
      after the first, records the count before it. */
  lemma TimelineShares(start: int, shares: real, actions: seq<Action>, k: nat)
    requires k <= |actions|
    ensures var tl := BuildTimeline(start, shares, actions);
      && tl[k].shares == ApplyActions(shares, actions[..k])
      && (k > 0 ==> tl[k].prevShares == Some(ApplyActions(shares, actions[..k - 1])))
  {
    if k == 0 {
      assert actions[..0] == [];
    } else {
      ReplayEntry(shares, actions, k - 1);
    }
  }

  /** Each entry after the first records the count before it and multiplies that
      count by its own factor: the timeline is a chain of adjustments. */
  lemma TimelineChain(start: int, shares: real, actions: seq<Action>, k: nat)
    requires 1 <= k <= |actions|
    ensures var tl := BuildTimeline(start, shares, actions);
      && tl[k].prevShares == Some(tl[k - 1].shares)
      && tl[k].shares == tl[k - 1].shares * actions[k - 1].factor
  {
    var tl := BuildTimeline(start, shares, actions);
    var pre := actions[..k];
    TimelineShares(start, shares, actions, k);
    TimelineShares(start, shares, actions, k - 1);
    assert pre[..k - 1] == actions[..k - 1];
    MulEq2(ApplyActions(shares, pre[..k - 1]), tl[k - 1].shares, pre[k - 1].factor, actions[k - 1].factor);
  }

  /** The last entry holds the running count after every action, which is what
      the source values the holding with. */
  lemma FinalShares(start: int, shares: real, actions: seq<Action>)
    ensures var tl := BuildTimeline(start, shares, actions);
      tl[|tl| - 1].shares == ApplyActions(shares, actions)
  {
    TimelineShares(start, shares, actions, |actions|);
    assert actions[..|actions|] == actions;
  }

  /** With sorted actions dated no earlier than the purchase, the timeline's dates never decrease. */
  lemma TimelineSorted(start: int, shares: real, actions: seq<Action>)
    requires SortedBy(actions, ActionDate)
    requires forall i :: 0 <= i < |actions| ==> start <= actions[i].date
    ensures SortedBy(BuildTimeline(start, shares, actions), AdjustmentDate)
  {
    var tl := BuildTimeline(start, shares, actions);
    forall i, j | 0 <= i < j < |tl|
      ensures AdjustmentDate(tl[i]) <= AdjustmentDate(tl[j])
    {
      if i > 0 {
        assert ActionDate(actions[i - 1]) <= ActionDate(actions[j - 1]);
      }
    }
  }

  /** The loop at calculator.js:390-399 from position `i`, holding `current`: take
      the count of each entry dated at or before `t`, stop at the first later one. */
  function WalkShares(tl: seq<Adjustment>, t: int, i: nat, current: real): real
    requires i <= |tl|
    decreases |tl| - i
  {
    if i == |tl| then current
    else if tl[i].date <= t then WalkShares(tl, t, i + 1, tl[i].shares)
    else current
  }

  /** The share count the growth series uses for a sample dated `t`: the first
      entry's count, replaced by each following entry dated at or before `t`. */
  function SharesAt(tl: seq<Adjustment>, t: int): real
    requires |tl| > 0
  {
    WalkShares(tl, t, 1, tl[0].shares)
  }

  /** Reference definition, searching from the end: the position of the last
      entry after the first that is dated at or before `t`, or 0 when there is none. */
  function LastAtOrBefore(tl: seq<Adjustment>, t: int, n: nat): (k: nat)
    requires 1 <= n <= |tl|
    ensures k < n
    ensures k == 0 || tl[k].date <= t
    ensures forall j :: k < j < n ==> tl[j].date > t
  {
    if n == 1 then 0
    else if tl[n - 1].date <= t then n - 1
    else LastAtOrBefore(tl, t, n - 1)
  }

  /** Only one position has the two properties `LastAtOrBefore` promises. */
  lemma LastAtOrBeforeUnique(tl: seq<Adjustment>, t: int, c: nat)
    requires c < |tl|
    requires c == 0 || tl[c].date <= t
    requires forall j :: c < j < |tl| ==> tl[j].date > t
    ensures LastAtOrBefore(tl, t, |tl|) == c
  {
  }

  lemma {:induction false} WalkSharesLast(tl: seq<Adjustment>, t: int, i: nat)
    requires SortedBy(tl, AdjustmentDate)
    requires 1 <= i <= |tl|
    requires i == 1 || tl[i - 1].date <= t
    ensures WalkShares(tl, t, i, tl[i - 1].shares) == tl[LastAtOrBefore(tl, t, |tl|)].shares
    decreases |tl| - i
  {
    if i == |tl| {
      LastAtOrBeforeUnique(tl, t, i - 1);
    } else if tl[i].date <= t {
      WalkSharesLast(tl, t, i + 1);
    } else {
      forall j | i <= j < |tl|
        ensures tl[j].date > t
      {
        assert AdjustmentDate(tl[i]) <= AdjustmentDate(tl[j]);
      }
      LastAtOrBeforeUnique(tl, t, i - 1);
    }
  }

  /** On a date-sorted timeline the forward walk with early exit finds the count
      of the last entry dated at or before `t`, or the first entry's count if no
      later entry is. */
  lemma SharesAtIsLastAtOrBefore(tl: seq<Adjustment>, t: int)
    requires |tl| > 0
    requires SortedBy(tl, AdjustmentDate)
    ensures SharesAt(tl, t) == tl[LastAtOrBefore(tl, t, |tl|)].shares
  {
    WalkSharesLast(tl, t, 1);
  }

  /** On a timeline built from sorted actions dated no earlier than the purchase,
      the shares held at `t` are the running count after exactly the actions
      dated from the purchase up to `t`. */
  lemma TimelineSharesAt(start: int, shares: real, actions: seq<Action>, t: int)
    requires SortedBy(actions, ActionDate)
    requires forall i :: 0 <= i < |actions| ==> start <= actions[i].date
    ensures SharesAt(BuildTimeline(start, shares, actions), t)
            == ApplyActions(shares, Within(actions, ActionDate, start, t))
  {
    TimelineQuery(start, shares, actions, t);
    TimelineQueryShares(start, shares, actions, t);
  }

  /** Timelines built from two orderings of the same sorted actions give the
      same count at every date. */
  lemma TimelineSharesPermutation(start: int, shares: real, a: seq<Action>, b: seq<Action>, t: int)
    requires SortedBy(a, ActionDate) && SortedBy(b, ActionDate)
    requires forall i :: 0 <= i < |a| ==> start <= a[i].date
    requires forall i :: 0 <= i < |b| ==> start <= b[i].date
    requires multiset(a) == multiset(b)
    ensures SharesAt(BuildTimeline(start, shares, a), t) == SharesAt(BuildTimeline(start, shares, b), t)
  {
    TimelineSharesAt(start, shares, a, t);
    TimelineSharesAt(start, shares, b, t);
    WithinPermutation(a, b, ActionDate, start, t);
    ApplyActionsPermutation(shares, Within(a, ActionDate, start, t), Within(b, ActionDate, start, t));
  }

  lemma TimelineQuery(start: int, shares: real, actions: seq<Action>, t: int)
    requires SortedBy(actions, ActionDate)
    requires forall i :: 0 <= i < |actions| ==> start <= actions[i].date
    ensures var tl := BuildTimeline(start, shares, actions);
      SharesAt(tl, t) == tl[LastAtOrBefore(tl, t, |tl|)].shares
  {
    TimelineSorted(start, shares, actions);
    SharesAtIsLastAtOrBefore(BuildTimeline(start, shares, actions), t);
  }

  lemma TimelineQueryShares(start: int, shares: real, actions: seq<Action>, t: int)
    requires SortedBy(actions, ActionDate)
    requires forall i :: 0 <= i < |actions| ==> start <= actions[i].date
    ensures var tl := BuildTimeline(start, shares, actions);
      tl[LastAtOrBefore(tl, t, |tl|)].shares == ApplyActions(shares, Within(actions, ActionDate, start, t))
  {
    var tl := BuildTimeline(start, shares, actions);
    TimelineShares(start, shares, actions, LastAtOrBefore(tl, t, |tl|));
    TimelineWithin(start, shares, actions, t);
  }

  /** The actions a timeline query at `t` has replayed are exactly those dated
      from the purchase up to `t`. */
  lemma TimelineWithin(start: int, shares: real, actions: seq<Action>, t: int)
    requires SortedBy(actions, ActionDate)
    requires forall i :: 0 <= i < |actions| ==> start <= actions[i].date
    ensures var tl := BuildTimeline(start, shares, actions);
      Within(actions, ActionDate, start, t) == actions[..LastAtOrBefore(tl, t, |tl|)]
  {
    var tl := BuildTimeline(start, shares, actions);
    TimelineSorted(start, shares, actions);
    var k := LastAtOrBefore(tl, t, |tl|);
    forall j | 0 <= j < k
      ensures start <= actions[j].date <= t
    {
      assert AdjustmentDate(tl[j + 1]) <= AdjustmentDate(tl[k]);
    }
    forall j | k <= j < |actions|
      ensures actions[j].date > t
    {
      assert tl[j + 1].date > t;
    }
    WithinPrefix(actions, start, t, k);
  }

  /** Filtering a sequence whose first `k` dates are in range and whose
      remaining dates are past the range keeps exactly the first `k`. */
  lemma WithinPrefix(actions: seq<Action>, start: int, t: int, k: nat)
    requires k <= |actions|
    requires forall j :: 0 <= j < k ==> start <= actions[j].date <= t
    requires forall j :: k <= j < |actions| ==> actions[j].date > t
    ensures Within(actions, ActionDate, start, t) == actions[..k]
  {
    PrefixInRange(actions, start, t, k);
    SuffixPastRange(actions, start, t, k);
    WithinAll(actions[..k], ActionDate, start, t);
    WithinNone(actions[k..], ActionDate, start, t);
    WithinConcat(actions[..k], actions[k..], ActionDate, start, t);
    assert actions[..k] + actions[k..] == actions;
  }

  lemma PrefixInRange(actions: seq<Action>, start: int, t: int, k: nat)
    requires k <= |actions|
    requires forall j :: 0 <= j < k ==> start <= actions[j].date <= t
    ensures forall j :: 0 <= j < |actions[..k]| ==> start <= ActionDate(actions[..k][j]) <= t
  {
  }

  lemma SuffixPastRange(actions: seq<Action>, start: int, t: int, k: nat)
    requires k <= |actions|
    requires forall j :: k <= j < |actions| ==> actions[j].date > t
    ensures forall j :: 0 <= j < |actions[k..]| ==> !(start <= ActionDate(actions[k..][j]) <= t)
  {
    forall j | 0 <= j < |actions[k..]|
      ensures !(start <= ActionDate(actions[k..][j]) <= t)
    {
      assert actions[k..][j] == actions[k + j];
    }
  }

  /** When every action is dated at or before `end`, the query at `end` returns
      the final running count. */
  lemma {:induction false} SharesAtEnd(start: int, shares: real, actions: seq<Action>, end: int)
    requires SortedBy(actions, ActionDate)
    requires forall i :: 0 <= i < |actions| ==> start <= actions[i].date <= end
    requires start <= end
    ensures SharesAt(BuildTimeline(start, shares, actions), end) == ApplyActions(shares, actions)
  {
    TimelineSharesAt(start, shares, actions, end);
    WithinAll(actions, ActionDate, start, end);
  }

  /** The actions `calculateReturns` replays (calculator.js:250-258): those dated
      within the investment window, both ends included, in date order. */
  function RelevantActions(actions: seq<Action>, start: int, end: int): (r: seq<Action>)
    ensures SortedBy(r, ActionDate)
    ensures forall i :: 0 <= i < |r| ==> start <= r[i].date <= end
    ensures multiset(r) == multiset(Within(actions, ActionDate, start, end))
  {
    var w := Within(actions, ActionDate, start, end);
    SortBySorts(w, ActionDate);
    SortedInRange(SortBy(w, ActionDate), w, start, end);
    SortBy(w, ActionDate)
  }

  lemma SortedInRange(r: seq<Action>, w: seq<Action>, start: int, end: int)
    requires multiset(r) == multiset(w)
    requires forall i :: 0 <= i < |w| ==> start <= w[i].date <= end
    ensures forall i :: 0 <= i < |r| ==> start <= r[i].date <= end
  {
    forall i | 0 <= i < |r|
      ensures start <= r[i].date <= end
    {
      assert r[i] in multiset(w);
    }
  }

  /** An action is replayed exactly when it is listed and dated within the window. */
  lemma RelevantMember(actions: seq<Action>, start: int, end: int, a: Action)
    ensures a in RelevantActions(actions, start, end) <==> a in actions && start <= a.date <= end
  {
    var w := Within(actions, ActionDate, start, end);
    WithinMember(actions, ActionDate, start, end, a);
    assert a in multiset(RelevantActions(actions, start, end)) <==> a in multiset(w);
  }

  /** Two action lists that give every day the same actions in the same order
      select the same relevant sequence, however they interleave different days:
      the stable sort makes the input order matter only among same-day actions. */
  lemma RelevantDependsOnlyOnDays(a: seq<Action>, b: seq<Action>, start: int, end: int)
    requires forall d :: Within(a, ActionDate, d, d) == Within(b, ActionDate, d, d)
    ensures RelevantActions(a, start, end) == RelevantActions(b, start, end)
  {
    var ra, rb := RelevantActions(a, start, end), RelevantActions(b, start, end);
    forall d
      ensures Within(ra, ActionDate, d, d) == Within(rb, ActionDate, d, d)
    {
      RelevantSlice(a, start, end, d);
      RelevantSlice(b, start, end, d);
    }
    SortedDeterminedBySlices(ra, rb, ActionDate);
  }

  /** The relevant actions of one day are that day's listed actions, in input
      order, when the day lies in the window. */
  lemma RelevantSlice(actions: seq<Action>, start: int, end: int, d: int)
    ensures Within(RelevantActions(actions, start, end), ActionDate, d, d)
            == Within(Within(actions, ActionDate, d, d), ActionDate, start, end)
  {
    var w := Within(actions, ActionDate, start, end);
    SortByStable(w, ActionDate, d);
    WithinWithin(actions, ActionDate, start, end, d, d);
    WithinWithin(actions, ActionDate, d, d, start, end);
  }

  /** The count after replaying the relevant actions does not depend on how the
      input lists them at all: any permutation of the input gives the same count. */
  lemma RelevantCountPermutation(shares: real, a: seq<Action>, b: seq<Action>, start: int, end: int)
    requires multiset(a) == multiset(b)
    ensures ApplyActions(shares, RelevantActions(a, start, end))
            == ApplyActions(shares, RelevantActions(b, start, end))
  {
    WithinPermutation(a, b, ActionDate, start, end);
    ApplyActionsPermutation(shares, RelevantActions(a, start, end), RelevantActions(b, start, end));
  }

  /* Steps of real arithmetic the solver does not take unprompted. */

  lemma MulSwap(p: real, f: real, q: real)
    ensures p * (f * q) == f * (p * q)
  {
  }

  lemma MulEq2(x: real, y: real, f: real, g: real)
    requires x == y && f == g
    ensures x * f == y * g
  {
  }

  lemma MulEq(x: real, y: real, z: real)
    requires y == z
    ensures x * y == x * z
  {
  }

  lemma MulAssoc(x: real, y: real, z: real)
    ensures x * y * z == x * (y * z)
  {
  }
}

=== FILE: domain.dfy ===
/** The entities the return engine passes around. Dates are millisecond
    timestamps (`Date.prototype.getTime()`); prices, share counts and factors are
    exact reals. */
module Domain {
  import opened Wrappers

  /** One sample of a price series: when, and the closing price then. */
  datatype PricePoint = PricePoint(date: int, close: real)

  /** A corporate action such as a split or bonus issue: from `date` on, every
      share held becomes `factor` shares. */
  datatype Action = Action(date: int, factor: real, description: string)

  /** One entry of the share-count timeline. The opening entry records the
      purchase and has no factor or previous count; every later entry records the
      action that produced it. */
  datatype Adjustment = Adjustment(
    date: int,
    shares: real,
    event: string,
    factor: Option<real>,
    prevShares: Option<real>)

  /** One point of the monthly growth chart: the sample's date, the holding's
      value on that date and the share count it was valued at. */
  datatype GrowthPoint = GrowthPoint(date: int, value: real, shares: real)

  function PriceDate(p: PricePoint): int { p.date }

  function ActionDate(a: Action): int { a.date }

  function AdjustmentDate(a: Adjustment): int { a.date }
}

=== FILE: growth.dfy ===
/** The monthly growth chart (calculator.js:338-411): the samples inside the
    investment window, thinned to the first sample of each calendar month, each
    valued at the share count the timeline gives for its date. */
module Growth {
  import opened Wrappers
  import opened Seqs
  import opened Domain
  import opened Adjuster

  /** A calendar position in local time: the full year and the month index 0-11,
      as `getFullYear()` and `getMonth()` report them. */
  datatype YearMonth = YearMonth(year: int, month: int)

  /** The month key the source compares (`getMonth() + getFullYear() * 12`). */
  function MonthKey(ym: YearMonth): int {
    ym.month + ym.year * 12
  }

  /** The key of the month a timestamp falls in, under the host's local-time
      calendar `cal`. */
  function MonthOf(cal: int -> YearMonth, t: int): int {
    MonthKey(cal(t))
  }

  /** A calendar whose month keys never decrease as time advances, as a
      real local-time calendar's do. */
  ghost predicate MonotoneCalendar(cal: int -> YearMonth) {
    forall t1, t2 :: t1 <= t2 ==> MonthOf(cal, t1) <= MonthOf(cal, t2)
  }

  /** The chart point for sample `p`: its date, the shares the timeline gives
      for that date, and their value at the sample's close. */
  function PointFor(tl: seq<Adjustment>, p: PricePoint): (g: GrowthPoint)
    requires |tl| > 0
    ensures g.date == p.date && g.shares == SharesAt(tl, p.date)
    ensures g.value == g.shares * p.close
  {
    var shares := SharesAt(tl, p.date);
    GrowthPoint(p.date, shares * p.close, shares)
  }

  /** The `forEach` at calculator.js:386-409 from sample `i` on, where `current`
      is the month last emitted (`currentMonth`; `None` when nothing has been
      compared yet): a sample whose month differs from `current` is emitted and
      becomes `current`. */
  function EmitFrom(points: seq<PricePoint>, tl: seq<Adjustment>, cal: int -> YearMonth, i: nat, current: Option<int>)
    : (r: seq<GrowthPoint>)
    requires |tl| > 0
    requires i <= |points|
    ensures |r| <= |points| - i
    decreases |points| - i
  {
    if i == |points| then []
    else
      var key := MonthOf(cal, points[i].date);
      if current != Some(key) then [PointFor(tl, points[i])] + EmitFrom(points, tl, cal, i + 1, Some(key))
      else EmitFrom(points, tl, cal, i + 1, current)
  }

  /** Reference definition: sample `i` opens a month when it is the first
      sample or its month differs from the previous sample's. */
  predicate OpensMonth(points: seq<PricePoint>, cal: int -> YearMonth, i: nat)
    requires i < |points|
  {
    i == 0 || MonthOf(cal, points[i - 1].date) != MonthOf(cal, points[i].date)
  }

  /** Reference definition: the chart of the first `n` samples has one point for
      every sample that opens a month, in sample order. */
  function Chart(points: seq<PricePoint>, tl: seq<Adjustment>, cal: int -> YearMonth, n: nat): seq<GrowthPoint>
    requires |tl| > 0
    requires n <= |points|
  {
    if n == 0 then []
    else Chart(points, tl, cal, n - 1) + (if OpensMonth(points, cal, n - 1) then [PointFor(tl, points[n - 1])] else [])
  }

  /** The chart of `n` samples extends the chart of `n - 1`, by the point for
      the last sample when that sample opens a month. */
  lemma ChartExtends(points: seq<PricePoint>, tl: seq<Adjustment>, cal: int -> YearMonth, n: nat)
    requires |tl| > 0
    requires 0 < n <= |points|
    ensures var c0, c := Chart(points, tl, cal, n - 1), Chart(points, tl, cal, n);
      && |c| == |c0| + (if OpensMonth(points, cal, n - 1) then 1 else 0)
      && (forall j :: 0 <= j < |c0| ==> c[j] == c0[j])
      && (OpensMonth(points, cal, n - 1) ==> c[|c0|] == PointFor(tl, points[n - 1]))
  {
  }

  /** The loop, started with nothing compared, computes the reference chart:
      the chart of the samples before `n` followed by the loop from `n`. */
  lemma {:induction false} EmitFromIsChart(points: seq<PricePoint>, tl: seq<Adjustment>, cal: int -> YearMonth, n: nat)
    requires |tl| > 0
    requires n <= |points|
    ensures EmitFrom(points, tl, cal, 0, None)
         == Chart(points, tl, cal, n)
            + EmitFrom(points, tl, cal, n, if n == 0 then None else Some(MonthOf(cal, points[n - 1].date)))
  {
    if n > 0 {
      EmitFromIsChart(points, tl, cal, n - 1);
      var prev := if n - 1 == 0 then None else Some(MonthOf(cal, points[n - 2].date));
      var key := MonthOf(cal, points[n - 1].date);
      assert (prev != Some(key)) == OpensMonth(points, cal, n - 1);
    }
  }

  /** The loop started with nothing compared is the reference chart of all samples. */
  lemma EmitIsChart(points: seq<PricePoint>, tl: seq<Adjustment>, cal: int -> YearMonth)
    requires |tl| > 0
    ensures EmitFrom(points, tl, cal, 0, None) == Chart(points, tl, cal, |points|)
  {
    EmitFromIsChart(points, tl, cal, |points|);
  }

  /** The chart of a non-empty prefix is non-empty and ends in the month of the
      prefix's last sample. */
  lemma {:induction false} ChartEndsInLastMonth(points: seq<PricePoint>, tl: seq<Adjustment>, cal: int -> YearMonth, n: nat)
    requires |tl| > 0
    requires 0 < n <= |points|
    ensures var c := Chart(points, tl, cal, n);
      |c| > 0 && MonthOf(cal, c[|c| - 1].date) == MonthOf(cal, points[n - 1].date)
  {
    if n > 1 && !OpensMonth(points, cal, n - 1) {
      ChartEndsInLastMonth(points, tl, cal, n - 1);
    }
  }

  /** No month is skipped: every sample's month has a chart point. */
  lemma {:induction false} ChartCoversMonths(points: seq<PricePoint>, tl: seq<Adjustment>, cal: int -> YearMonth, n: nat, i: nat)
    requires |tl| > 0
    requires i < n <= |points|
    ensures var c := Chart(points, tl, cal, n);
      exists j :: 0 <= j < |c| && MonthOf(cal, c[j].date) == MonthOf(cal, points[i].date)
  {
    var c := Chart(points, tl, cal, n);
    if i == n - 1 {
      ChartEndsInLastMonth(points, tl, cal, n);
      assert MonthOf(cal, c[|c| - 1].date) == MonthOf(cal, points[i].date);
    } else {
      ChartCoversMonths(points, tl, cal, n - 1, i);
      var c0 := Chart(points, tl, cal, n - 1);
      var j :| 0 <= j < |c0| && MonthOf(cal, c0[j].date) == MonthOf(cal, points[i].date);
      ChartExtends(points, tl, cal, n);
      assert c[j] == c0[j];
      assert 0 <= j < |c| && MonthOf(cal, c[j].date) == MonthOf(cal, points[i].date);
    }
  }

  /** Consecutive chart points lie in different months. */
  lemma {:induction false} ChartMonthsChange(points: seq<PricePoint>, tl: seq<Adjustment>, cal: int -> YearMonth, n: nat)
    requires |tl| > 0
    requires n <= |points|
    ensures var c := Chart(points, tl, cal, n);
      forall j :: 0 < j < |c| ==> MonthOf(cal, c[j - 1].date) != MonthOf(cal, c[j].date)
  {
    if n > 0 {
      var c0 := Chart(points, tl, cal, n - 1);
      var c := Chart(points, tl, cal, n);
      ChartMonthsChange(points, tl, cal, n - 1);
      ChartExtends(points, tl, cal, n);
      if n > 1 && OpensMonth(points, cal, n - 1) {
        ChartEndsInLastMonth(points, tl, cal, n - 1);
        assert MonthOf(cal, c[|c0|].date) == MonthOf(cal, points[n - 1].date);
      }
      forall j | 0 < j < |c|
        ensures MonthOf(cal, c[j - 1].date) != MonthOf(cal, c[j].date)
      {
        assert c[j - 1] == c0[j - 1];
        if j < |c0| {
          assert c[j] == c0[j];
        }
      }
    }
  }

  /** On date-sorted samples under a monotone calendar, no chart point lies in a
      month after the last sample's. */
  lemma {:induction false} ChartMonthsBounded(points: seq<PricePoint>, tl: seq<Adjustment>, cal: int -> YearMonth, n: nat)
    requires |tl| > 0
    requires 0 < n <= |points|
    requires SortedBy(points, PriceDate)
    requires MonotoneCalendar(cal)
    ensures var c := Chart(points, tl, cal, n);
      forall j :: 0 <= j < |c| ==> MonthOf(cal, c[j].date) <= MonthOf(cal, points[n - 1].date)
  {
    var c0 := Chart(points, tl, cal, n - 1);
    var c := Chart(points, tl, cal, n);
    var last := MonthOf(cal, points[n - 1].date);
    ChartExtends(points, tl, cal, n);
    if n > 1 {
      ChartMonthsBounded(points, tl, cal, n - 1);
      assert PriceDate(points[n - 2]) <= PriceDate(points[n - 1]);
      assert MonthOf(cal, points[n - 2].date) <= last;
    }
    forall j | 0 <= j < |c|
      ensures MonthOf(cal, c[j].date) <= last
    {
      if j < |c0| {
        assert c[j] == c0[j];
      }
    }
  }

  /** On date-sorted samples under a monotone calendar, the chart's months
      strictly increase: one point per month, in order. */
  lemma {:induction false} ChartMonthsIncrease(points: seq<PricePoint>, tl: seq<Adjustment>, cal: int -> YearMonth, n: nat)
    requires |tl| > 0
    requires n <= |points|
    requires SortedBy(points, PriceDate)
    requires MonotoneCalendar(cal)
    ensures var c := Chart(points, tl, cal, n);
      forall j, k :: 0 <= j < k < |c| ==> MonthOf(cal, c[j].date) < MonthOf(cal, c[k].date)
  {
    if n > 1 {
      var c0 := Chart(points, tl, cal, n - 1);
      var last := MonthOf(cal, points[n - 1].date);
      var c := Chart(points, tl, cal, n);
      ChartMonthsIncrease(points, tl, cal, n - 1);
      ChartExtends(points, tl, cal, n);
      if OpensMonth(points, cal, n - 1) {
        ChartMonthsBounded(points, tl, cal, n - 1);
        assert PriceDate(points[n - 2]) <= PriceDate(points[n - 1]);
        assert MonthOf(cal, points[n - 2].date) < last;
        assert MonthOf(cal, c[|c0|].date) == last;
      }
      forall j, k | 0 <= j < k < |c|
        ensures MonthOf(cal, c[j].date) < MonthOf(cal, c[k].date)
      {
        assert c[j] == c0[j];
        if k < |c0| {
          assert c[k] == c0[k];
        }
      }
    }
  }

  /** Every chart point is the point for one of the samples, and that sample
      opens a month. */
  lemma {:induction false} ChartPointsAreSamples(points: seq<PricePoint>, tl: seq<Adjustment>, cal: int -> YearMonth, n: nat, j: nat)
    requires |tl| > 0
    requires n <= |points|
    requires j < |Chart(points, tl, cal, n)|
    ensures exists i :: 0 <= i < n && OpensMonth(points, cal, i) && Chart(points, tl, cal, n)[j] == PointFor(tl, points[i])
  {
    var c0 := Chart(points, tl, cal, n - 1);
    if j < |c0| {
      ChartPointsAreSamples(points, tl, cal, n - 1, j);
      var i :| 0 <= i < n - 1 && OpensMonth(points, cal, i) && c0[j] == PointFor(tl, points[i]);
      assert Chart(points, tl, cal, n)[j] == PointFor(tl, points[i]);
    } else {
      assert Chart(points, tl, cal, n)[j] == PointFor(tl, points[n - 1]);
    }
  }

  /** On date-sorted samples under a monotone calendar, a sample that opens a
      month is the first sample of that month: every earlier sample lies in an
      earlier month. */
  lemma OpensMonthIsFirst(points: seq<PricePoint>, cal: int -> YearMonth, i: nat, k: nat)
    requires SortedBy(points, PriceDate)
    requires MonotoneCalendar(cal)
    requires k < i < |points|
    requires OpensMonth(points, cal, i)
    ensures MonthOf(cal, points[k].date) < MonthOf(cal, points[i].date)
  {
    assert PriceDate(points[k]) <= PriceDate(points[i - 1]) <= PriceDate(points[i]);
    assert MonthOf(cal, points[k].date) <= MonthOf(cal, points[i - 1].date) <= MonthOf(cal, points[i].date);
  }

  /** The chart has no more points than samples, and has one exactly when there is a sample. */
  lemma {:induction false} ChartSize(points: seq<PricePoint>, tl: seq<Adjustment>, cal: int -> YearMonth, n: nat)
    requires |tl| > 0
    requires n <= |points|
    ensures |Chart(points, tl, cal, n)| <= n
    ensures |Chart(points, tl, cal, n)| == 0 <==> n == 0
  {
    if n > 0 {
      ChartSize(points, tl, cal, n - 1);
    }
  }

  /** `generateGrowthDataWithAdjustments` as written (calculator.js:366-411):
      the samples dated within the window, nothing when there are none, else
      the monthly loop over them against the date-sorted timeline, starting
      from the sentinel month -1. */
  function GrowthAsWritten(data: seq<PricePoint>, start: int, end: int, tl: seq<Adjustment>, cal: int -> YearMonth)
    : (r: seq<GrowthPoint>)
    requires |tl| > 0
    ensures |r| <= |Within(data, PriceDate, start, end)|
  {
    var inRange := Within(data, PriceDate, start, end);
    if |inRange| == 0 then []
    else EmitFrom(inRange, SortBy(tl, AdjustmentDate), cal, 0, Some(-1))
  }

  /** The monthly chart with "no month yet" kept apart from every real month:
      the first in-range sample always opens a month. */
  function GenerateGrowth(data: seq<PricePoint>, start: int, end: int, tl: seq<Adjustment>, cal: int -> YearMonth)
    : (r: seq<GrowthPoint>)
    requires |tl| > 0
    ensures |r| <= |Within(data, PriceDate, start, end)|
    ensures |r| == 0 <==> |Within(data, PriceDate, start, end)| == 0
    ensures r == Chart(Within(data, PriceDate, start, end), SortBy(tl, AdjustmentDate), cal,
                       |Within(data, PriceDate, start, end)|)
  {
    var inRange := Within(data, PriceDate, start, end);
    var stl := SortBy(tl, AdjustmentDate);
    EmitIsChart(inRange, stl, cal);
    ChartSize(inRange, stl, cal, |inRange|);
    if |inRange| == 0 then []
    else EmitFrom(inRange, stl, cal, 0, None)
  }

  /** Every point of the chart is dated inside the window and is the point for
      an in-range sample that opens a month, valued at the timeline's shares
      for its date. */
  lemma GrowthPointsInWindow(data: seq<PricePoint>, start: int, end: int, tl: seq<Adjustment>, cal: int -> YearMonth, j: nat)
    requires |tl| > 0
    requires j < |GenerateGrowth(data, start, end, tl, cal)|
    ensures start <= GenerateGrowth(data, start, end, tl, cal)[j].date <= end
    ensures exists i ::
              && 0 <= i < |Within(data, PriceDate, start, end)|
              && OpensMonth(Within(data, PriceDate, start, end), cal, i)
              && GenerateGrowth(data, start, end, tl, cal)[j]
                 == PointFor(SortBy(tl, AdjustmentDate), Within(data, PriceDate, start, end)[i])
  {
    var inRange := Within(data, PriceDate, start, end);
    var stl := SortBy(tl, AdjustmentDate);
    ChartPointsAreSamples(inRange, stl, cal, |inRange|, j);
  }

  /** Two timelines that give every sample the same count give the same chart. */
  lemma {:induction false} ChartSameShares(points: seq<PricePoint>, ta: seq<Adjustment>, tb: seq<Adjustment>,
                                           cal: int -> YearMonth, n: nat)
    requires |ta| > 0 && |tb| > 0
    requires n <= |points|
    requires forall i :: 0 <= i < n ==> SharesAt(ta, points[i].date) == SharesAt(tb, points[i].date)
    ensures Chart(points, ta, cal, n) == Chart(points, tb, cal, n)
  {
    if n > 0 {
      ChartSameShares(points, ta, tb, cal, n - 1);
      assert PointFor(ta, points[n - 1]) == PointFor(tb, points[n - 1]);
    }
  }

  /** Two date-sorted timelines that agree on the count at every date give the
      same growth chart. */
  lemma {:induction false} GrowthSameShares(data: seq<PricePoint>, start: int, end: int, ta: seq<Adjustment>, tb: seq<Adjustment>,
                         cal: int -> YearMonth)
    requires |ta| > 0 && |tb| > 0
    requires SortedBy(ta, AdjustmentDate) && SortedBy(tb, AdjustmentDate)
    requires forall t :: SharesAt(ta, t) == SharesAt(tb, t)
    ensures GenerateGrowth(data, start, end, ta, cal) == GenerateGrowth(data, start, end, tb, cal)
  {
    var inRange := Within(data, PriceDate, start, end);
    SortBySorted(ta, AdjustmentDate);
    SortBySorted(tb, AdjustmentDate);
    ChartSameShares(inRange, ta, tb, cal, |inRange|);
  }

  /** On a date-sorted series under a monotone calendar, the chart's months
      strictly increase: one point per month, in date order. */
  lemma GrowthMonthsIncrease(data: seq<PricePoint>, start: int, end: int, tl: seq<Adjustment>, cal: int -> YearMonth)
    requires |tl| > 0
    requires SortedBy(data, PriceDate)
    requires MonotoneCalendar(cal)
    ensures var r := GenerateGrowth(data, start, end, tl, cal);
      forall j, k :: 0 <= j < k < |r| ==> MonthOf(cal, r[j].date) < MonthOf(cal, r[k].date)
  {
    var inRange := Within(data, PriceDate, start, end);
    var stl := SortBy(tl, AdjustmentDate);
    WithinSorted(data, PriceDate, start, end);
    ChartMonthsIncrease(inRange, stl, cal, |inRange|);
    assert GenerateGrowth(data, start, end, tl, cal) == Chart(inRange, stl, cal, |inRange|);
  }

  /** The sentinel and the corrected start agree whenever the first in-range
      sample's month key is not -1, which holds for every year from 0 on. */
  lemma AsWrittenAgrees(data: seq<PricePoint>, start: int, end: int, tl: seq<Adjustment>, cal: int -> YearMonth)
    requires |tl| > 0
    requires var inRange := Within(data, PriceDate, start, end);
      |inRange| == 0 || MonthOf(cal, inRange[0].date) != -1
    ensures GrowthAsWritten(data, start, end, tl, cal) == GenerateGrowth(data, start, end, tl, cal)
  {
  }

  /** The sentinel collides with a real month: December of year -1 has key
      -1, so a window whose only sample falls in it yields an empty chart
      although the window holds a sample. */
  lemma SentinelDropsFirstMonth(p: PricePoint, tl: seq<Adjustment>, cal: int -> YearMonth)
    requires |tl| > 0
    requires cal(p.date) == YearMonth(-1, 11)
    ensures GrowthAsWritten([p], p.date, p.date, tl, cal) == []
    ensures |GenerateGrowth([p], p.date, p.date, tl, cal)| == 1
  {
    assert Within([p], PriceDate, p.date, p.date) == [p];
  }

  /** A point of the chart without share adjustments: date and value only. */
  datatype ValuePoint = ValuePoint(date: int, value: real)

  /** The loop of `generateGrowthData` (calculator.js:349-361) from sample `i`,
      valuing a fixed share count, with `current` the month last emitted. */
  function LegacyFrom(points: seq<PricePoint>, shares: real, cal: int -> YearMonth, i: nat, current: int)
    : (r: seq<ValuePoint>)
    requires i <= |points|
    ensures |r| <= |points| - i
    decreases |points| - i
  {
    if i == |points| then []
    else
      var key := MonthOf(cal, points[i].date);
      if key != current then
        [ValuePoint(points[i].date, shares * points[i].close)] + LegacyFrom(points, shares, cal, i + 1, key)
      else LegacyFrom(points, shares, cal, i + 1, current)
  }

  /** `generateGrowthData` (calculator.js:338-364): the in-range samples, thinned
      to months from the sentinel -1, valued at a share count that never changes. */
  function LegacyGrowth(data: seq<PricePoint>, shares: real, start: int, end: int, cal: int -> YearMonth)
    : (r: seq<ValuePoint>)
    ensures |r| <= |Within(data, PriceDate, start, end)|
  {
    LegacyFrom(Within(data, PriceDate, start, end), shares, cal, 0, -1)
  }

  /** With a timeline holding only the purchase, every sample is valued at the
      purchased shares. */
  lemma PointForSingle(tl: seq<Adjustment>, p: PricePoint)
    requires |tl| == 1
    ensures PointFor(tl, p) == GrowthPoint(p.date, tl[0].shares * p.close, tl[0].shares)
  {
    assert SharesAt(tl, p.date) == tl[0].shares;
    MulEq2(SharesAt(tl, p.date), tl[0].shares, p.close, p.close);
  }

  lemma {:induction false} LegacyFromMatches(points: seq<PricePoint>, tl: seq<Adjustment>, cal: int -> YearMonth, i: nat, current: int)
    requires |tl| == 1
    requires i <= |points|
    ensures var l, g := LegacyFrom(points, tl[0].shares, cal, i, current), EmitFrom(points, tl, cal, i, Some(current));
      && |l| == |g|
      && forall j :: 0 <= j < |l| ==> l[j] == ValuePoint(g[j].date, g[j].value) && g[j].shares == tl[0].shares
    decreases |points| - i
  {
    if i < |points| {
      var key := MonthOf(cal, points[i].date);
      if key != current {
        LegacyFromMatches(points, tl, cal, i + 1, key);
        PointForSingle(tl, points[i]);
      } else {
        LegacyFromMatches(points, tl, cal, i + 1, current);
      }
    }
  }

  /** The legacy chart is the adjusted chart, as written, for a timeline that
      holds only the purchase: same dates and values, and the share count never
      moves off the purchased shares. */
  lemma LegacyIsUnadjustedGrowth(data: seq<PricePoint>, shares: real, start: int, end: int, cal: int -> YearMonth)
    ensures var tl := [Adjustment(start, shares, InitialEvent, None, None)];
      var l, g := LegacyGrowth(data, shares, start, end, cal), GrowthAsWritten(data, start, end, tl, cal);
      && |l| == |g|
      && forall j :: 0 <= j < |l| ==> l[j] == ValuePoint(g[j].date, g[j].value) && g[j].shares == shares
  {
    var tl := [Adjustment(start, shares, InitialEvent, None, None)];
    SortBySorted(tl, AdjustmentDate);
    LegacyFromMatches(Within(data, PriceDate, start, end), tl, cal, 0, -1);
  }
}

=== FILE: price_series.dfy ===
/** The CSV reader (`parseCSV`, calculator.js:146-214): turns the text of a
    price file into a price series sorted by date. */
module PriceSeries {
  import opened Wrappers
  import opened Text
  import opened Seqs
  import opened Domain

  /** The JavaScript built-ins the reader calls, whose behaviour belongs to the
      host: `new Date(string)`, `parseFloat`, `parseInt` and `new Date(y, m, d)`
      (which reads its arguments in the local time zone). `None` stands for an
      invalid date or `NaN`. */
  datatype Builtins = Builtins(
    dateFromString: string -> Option<int>,
    parseFloat: string -> Option<real>,
    parseInt: string -> Option<int>,
    dateFromParts: (int, int, int) -> Option<int>)

  datatype ParseError =
    | MalformedSchema      // the header lacks a `Date` or a `Close` column
    | EmptyOrInvalidData   // no data row survived

  /** The arguments of `new Date(year, monthIndex, day)`; `monthIndex` is zero-based. */
  datatype DateFields = DateFields(year: int, monthIndex: int, day: int)

  const DateSeparators: set<char> := {'-', '/'}

  /** The fallback for a date string the host cannot parse (calculator.js:179-189):
      split it on `-` or `/`; with exactly three parts, a four-character first part
      means year-month-day and anything else day-month-year, and the month is made
      zero-based. A part `parseInt` cannot read makes the date invalid. */
  function FallbackFields(dateStr: string, parseInt: string -> Option<int>): (r: Option<DateFields>)
    ensures var parts := Split(dateStr, DateSeparators);
      r.Some? ==> (
        && |parts| == 3
        && Some(r.value.monthIndex + 1) == parseInt(parts[1])
        && (|parts[0]| == 4 ==> Some(r.value.year) == parseInt(parts[0]) && Some(r.value.day) == parseInt(parts[2]))
        && (|parts[0]| != 4 ==> Some(r.value.year) == parseInt(parts[2]) && Some(r.value.day) == parseInt(parts[0])))
    ensures var parts := Split(dateStr, DateSeparators);
      r.None? <==> |parts| != 3 || parseInt(parts[0]).None? || parseInt(parts[1]).None? || parseInt(parts[2]).None?
  {
    var parts := Split(dateStr, DateSeparators);
    if |parts| != 3 then None
    else
      var yearPart := if |parts[0]| == 4 then parts[0] else parts[2];
      var dayPart := if |parts[0]| == 4 then parts[2] else parts[0];
      match (parseInt(yearPart), parseInt(parts[1]), parseInt(dayPart))
      case (Some(y), Some(m), Some(d)) => Some(DateFields(y, m - 1, d))
      case _ => None
  }

  /** The timestamp of a row's date string: the host's own parse, or failing that
      the three-part fallback (calculator.js:173-190). */
  function RowDate(dateStr: string, b: Builtins): Option<int> {
    match b.dateFromString(dateStr)
    case Some(t) => Some(t)
    case None =>
      match FallbackFields(dateStr, b.parseInt)
      case Some(f) => b.dateFromParts(f.year, f.monthIndex, f.day)
      case None => None
  }

  function Max(a: int, b: int): int { if a < b then b else a }

  /** One data line (calculator.js:161-200): a line with too few columns, an
      invalid date or a close that is `NaN` yields no sample. */
  function ParseRow(line: string, dateIndex: nat, closeIndex: nat, b: Builtins): (r: Option<PricePoint>)
    ensures r.Some? <==>
      var values := Split(line, {','});
      && |values| >= Max(dateIndex, closeIndex) + 1
      && RowDate(Trim(values[dateIndex]), b).Some?
      && b.parseFloat(values[closeIndex]).Some?
    ensures r.Some? ==>
      var values := Split(line, {','});
      && Some(r.value.date) == RowDate(Trim(values[dateIndex]), b)
      && Some(r.value.close) == b.parseFloat(values[closeIndex])
  {
    var values := Split(line, {','});
    if |values| < Max(dateIndex, closeIndex) + 1 then None
    else
      match (RowDate(Trim(values[dateIndex]), b), b.parseFloat(values[closeIndex]))
      case (Some(date), Some(close)) => Some(PricePoint(date, close))
      case _ => None
  }

  /** The samples of the data lines that parse, in file order. */
  function ParseRows(lines: seq<string>, dateIndex: nat, closeIndex: nat, b: Builtins): (rows: seq<PricePoint>)
    ensures |rows| <= |lines|
  {
    if |lines| == 0 then []
    else
      (match ParseRow(lines[0], dateIndex, closeIndex, b)
       case Some(p) => [p]
       case None => [])
      + ParseRows(lines[1..], dateIndex, closeIndex, b)
  }

  /** A sample comes out of `ParseRows` exactly when some line parses to it. */
  lemma {:induction false} ParseRowsMember(lines: seq<string>, dateIndex: nat, closeIndex: nat, b: Builtins, p: PricePoint)
    ensures p in ParseRows(lines, dateIndex, closeIndex, b)
            <==> exists k :: 0 <= k < |lines| && ParseRow(lines[k], dateIndex, closeIndex, b) == Some(p)
  {
    if |lines| > 0 {
      ParseRowsMember(lines[1..], dateIndex, closeIndex, b, p);
      if exists k :: 0 <= k < |lines| && ParseRow(lines[k], dateIndex, closeIndex, b) == Some(p) {
        var k :| 0 <= k < |lines| && ParseRow(lines[k], dateIndex, closeIndex, b) == Some(p);
        if k > 0 {
          assert lines[1..][k - 1] == lines[k];
        }
      }
      if exists k :: 0 <= k < |lines[1..]| && ParseRow(lines[1..][k], dateIndex, closeIndex, b) == Some(p) {
        var k :| 0 <= k < |lines[1..]| && ParseRow(lines[1..][k], dateIndex, closeIndex, b) == Some(p);
        assert lines[k + 1] == lines[1..][k];
      }
    }
  }

  /** The lines of the trimmed text; there is always at least one. */
  function Lines(text: string): (lines: seq<string>)
    ensures |lines| >= 1
  {
    Split(Trim(text), {'\n'})
  }

  /** The column names on the first line. */
  function Headers(text: string): seq<string> {
    Split(Lines(text)[0], {','})
  }

  /** The samples of the data lines, in file order, given that both required
      columns are present. */
  function DataRows(text: string, b: Builtins): seq<PricePoint>
    requires "Date" in Headers(text) && "Close" in Headers(text)
  {
    var headers := Headers(text);
    ParseRows(Lines(text)[1..], IndexOf(headers, "Date"), IndexOf(headers, "Close"), b)
  }

  /** `parseCSV`: fails when a required column is missing or when no row
      survives, and otherwise returns every surviving sample, sorted by date. */
  function ParseCsv(text: string, b: Builtins): (r: Result<seq<PricePoint>, ParseError>)
    ensures r == Failure(MalformedSchema) <==> "Date" !in Headers(text) || "Close" !in Headers(text)
    ensures r == Failure(EmptyOrInvalidData) <==>
      "Date" in Headers(text) && "Close" in Headers(text) && DataRows(text, b) == []
    ensures r.Success? ==>
      && |r.value| > 0
      && SortedBy(r.value, PriceDate)
      && multiset(r.value) == multiset(DataRows(text, b))
  {
    var headers := Headers(text);
    var dateIndex := IndexOf(headers, "Date");
    var closeIndex := IndexOf(headers, "Close");
    if dateIndex == -1 || closeIndex == -1 then Failure(MalformedSchema)
    else
      var rows := ParseRows(Lines(text)[1..], dateIndex, closeIndex, b);
      if |rows| == 0 then Failure(EmptyOrInvalidData)
      else
        SortBySorts(rows, PriceDate);
        Success(SortBy(rows, PriceDate))
  }

  /** A sample is in the parsed series exactly when some data line parses to it. */
  lemma ParseCsvMembers(text: string, b: Builtins, p: PricePoint)
    requires ParseCsv(text, b).Success?
    ensures var lines := Lines(text);
      var headers := Headers(text);
      p in ParseCsv(text, b).value <==>
        exists k :: 1 <= k < |lines|
          && ParseRow(lines[k], IndexOf(headers, "Date"), IndexOf(headers, "Close"), b) == Some(p)
  {
    var lines := Lines(text);
    var headers := Headers(text);
    var di, ci := IndexOf(headers, "Date"), IndexOf(headers, "Close");
    var rows := DataRows(text, b);
    assert p in ParseCsv(text, b).value <==> p in multiset(rows);
    ParseRowsMember(lines[1..], di, ci, b, p);
    RowAfterHeader(lines, di, ci, b, p);
  }

  /** A line after the first parses to `p` exactly when some line of the tail does. */
  lemma RowAfterHeader(lines: seq<string>, di: nat, ci: nat, b: Builtins, p: PricePoint)
    requires |lines| >= 1
    ensures (exists k :: 1 <= k < |lines| && ParseRow(lines[k], di, ci, b) == Some(p))
        <==> (exists k :: 0 <= k < |lines[1..]| && ParseRow(lines[1..][k], di, ci, b) == Some(p))
  {
    if exists k :: 1 <= k < |lines| && ParseRow(lines[k], di, ci, b) == Some(p) {
      var k :| 1 <= k < |lines| && ParseRow(lines[k], di, ci, b) == Some(p);
      assert lines[1..][k - 1] == lines[k];
    }
    if exists k :: 0 <= k < |lines[1..]| && ParseRow(lines[1..][k], di, ci, b) == Some(p) {
      var k :| 0 <= k < |lines[1..]| && ParseRow(lines[1..][k], di, ci, b) == Some(p);
      assert lines[k + 1] == lines[1..][k];
    }
  }

  /** Samples that share a date keep the order of their lines in the file. */
  lemma ParseCsvStable(text: string, b: Builtins, d: int)
    requires ParseCsv(text, b).Success?
    ensures Within(ParseCsv(text, b).value, PriceDate, d, d) == Within(DataRows(text, b), PriceDate, d, d)
  {
    SortByStable(DataRows(text, b), PriceDate, d);
  }

  /** An ISO-style date the host rejects, `yyyy-mm-dd` or `yyyy/mm/dd` with a
      four-character year, is read year first. */
  lemma FallbackReadsYearFirst(y: string, m: string, d: string, s1: char, s2: char, parseInt: string -> Option<int>)
    requires |y| == 4 && s1 in DateSeparators && s2 in DateSeparators
    requires forall c :: c in y + m + d ==> c !in DateSeparators
    requires parseInt(y).Some? && parseInt(m).Some? && parseInt(d).Some?
    ensures FallbackFields(y + [s1] + m + [s2] + d, parseInt)
            == Some(DateFields(parseInt(y).value, parseInt(m).value - 1, parseInt(d).value))
  {
    ThreeParts(y, m, d, s1, s2);
  }

  /** Any other three-part date, such as `dd-mm-yyyy`, is read day first. */
  lemma FallbackReadsDayFirst(d: string, m: string, y: string, s1: char, s2: char, parseInt: string -> Option<int>)
    requires |d| != 4 && s1 in DateSeparators && s2 in DateSeparators
    requires forall c :: c in d + m + y ==> c !in DateSeparators
    requires parseInt(y).Some? && parseInt(m).Some? && parseInt(d).Some?
    ensures FallbackFields(d + [s1] + m + [s2] + y, parseInt)
            == Some(DateFields(parseInt(y).value, parseInt(m).value - 1, parseInt(d).value))
  {
    ThreeParts(d, m, y, s1, s2);
  }

  /** The heuristic cannot tell `mm/dd/yyyy` from `dd/mm/yyyy`: exchanging the
      first two parts exchanges the month and the day that are read. */
  lemma FallbackDayMonthAmbiguous(a: string, b: string, y: string, s: char, parseInt: string -> Option<int>)
    requires |a| != 4 && |b| != 4 && s in DateSeparators
    requires forall c :: c in a + b + y ==> c !in DateSeparators
    requires parseInt(a).Some? && parseInt(b).Some? && parseInt(y).Some?
    ensures FallbackFields(a + [s] + b + [s] + y, parseInt).Some?
    ensures FallbackFields(b + [s] + a + [s] + y, parseInt).Some?
    ensures FallbackFields(a + [s] + b + [s] + y, parseInt).value.day
            == FallbackFields(b + [s] + a + [s] + y, parseInt).value.monthIndex + 1
    ensures FallbackFields(a + [s] + b + [s] + y, parseInt).value.monthIndex + 1
            == FallbackFields(b + [s] + a + [s] + y, parseInt).value.day
  {
    ThreeParts(a, b, y, s, s);
    assert forall c :: c in b + a + y ==> c in a + b + y;
    ThreeParts(b, a, y, s, s);
  }

  /** Three separator-free parts joined by two separators split back into those parts. */
  lemma ThreeParts(p0: string, p1: string, p2: string, s1: char, s2: char)
    requires s1 in DateSeparators && s2 in DateSeparators
    requires forall c :: c in p0 + p1 + p2 ==> c !in DateSeparators
    ensures Split(p0 + [s1] + p1 + [s2] + p2, DateSeparators) == [p0, p1, p2]
  {
    forall c | c in p0 ensures c !in DateSeparators { assert c in p0 + p1 + p2; }
    forall c | c in p1 ensures c !in DateSeparators { assert c in p0 + p1 + p2; }
    forall c | c in p2 ensures c !in DateSeparators { assert c in p0 + p1 + p2; }
    assert p0 + [s1] + p1 + [s2] + p2 == p0 + [s1] + (p1 + [s2] + p2);
    SplitLeadingPart(p0, s1, p1 + [s2] + p2, DateSeparators);
    SplitLeadingPart(p1, s2, p2, DateSeparators);
    SplitNoSeparator(p2, DateSeparators);
  }
}

=== FILE: resolver.dfy ===
/** The nearest-date resolver (`findClosestPrice`, calculator.js:318-336): the
    sample whose date is closest to a requested date, with no cap on how far
    away that may be. */
module Resolver {
  import opened Wrappers
  import opened Domain

  /** `Math.abs(point.date - target)`. */
  function Distance(p: PricePoint, target: int): nat {
    if p.date >= target then p.date - target else target - p.date
  }

  /** The source's loop from position `i` on, with `best` the sample kept so far:
      a later sample replaces it only when strictly closer. */
  function ScanClosest(s: seq<PricePoint>, target: int, i: nat, best: nat): (k: nat)
    requires best < i <= |s|
    requires forall j :: 0 <= j < i ==> Distance(s[best], target) <= Distance(s[j], target)
    requires forall j :: 0 <= j < best ==> Distance(s[j], target) > Distance(s[best], target)
    ensures k < |s|
    ensures forall j :: 0 <= j < |s| ==> Distance(s[k], target) <= Distance(s[j], target)
    ensures forall j :: 0 <= j < k ==> Distance(s[j], target) > Distance(s[k], target)
    decreases |s| - i
  {
    if i == |s| then best
    else if Distance(s[i], target) < Distance(s[best], target) then ScanClosest(s, target, i + 1, i)
    else ScanClosest(s, target, i + 1, best)
  }

  /** Position of the sample `findClosestPrice` returns: the first sample seeds the
      search (every distance is below the initial `Infinity`), so the result is
      the earliest of the closest samples. */
  function ClosestIndex(s: seq<PricePoint>, target: int): (k: nat)
    requires |s| > 0
    ensures k < |s|
    ensures forall j :: 0 <= j < |s| ==> Distance(s[k], target) <= Distance(s[j], target)
    ensures forall j :: 0 <= j < k ==> Distance(s[j], target) > Distance(s[k], target)
  {
    ScanClosest(s, target, 1, 0)
  }

  /** `findClosestPrice`: `null` exactly for an empty series, and otherwise a
      sample at least as close to the target as every other. */
  function FindClosest(s: seq<PricePoint>, target: int): (r: Option<PricePoint>)
    ensures r.None? <==> |s| == 0
    ensures r.Some? ==> r.value in s
    ensures r.Some? ==> forall j :: 0 <= j < |s| ==> Distance(r.value, target) <= Distance(s[j], target)
  {
    if |s| == 0 then None else Some(s[ClosestIndex(s, target)])
  }

  /** The position the resolver picks is the only one that is as close as every
      sample and strictly closer than every sample before it. */
  lemma ClosestIndexUnique(s: seq<PricePoint>, target: int, k: nat)
    requires k < |s|
    requires forall j :: 0 <= j < |s| ==> Distance(s[k], target) <= Distance(s[j], target)
    requires forall j :: 0 <= j < k ==> Distance(s[j], target) > Distance(s[k], target)
    ensures ClosestIndex(s, target) == k
  {
    var c := ClosestIndex(s, target);
    assert Distance(s[c], target) == Distance(s[k], target);
  }

  /** On a tie the earlier sample wins: a sample equally close as the returned one
      never precedes it. */
  lemma ClosestTieGoesToFirst(s: seq<PricePoint>, target: int, j: nat)
    requires j < |s|
    requires Distance(s[j], target) == Distance(FindClosest(s, target).value, target)
    ensures ClosestIndex(s, target) <= j
  {
  }

  /** No distance cap: a target beyond the last date of a sorted series resolves
      to a sample carrying that last date, however far away. */
  lemma ClosestBeyondEnd(s: seq<PricePoint>, target: int)
    requires |s| > 0
    requires forall i, j :: 0 <= i < j < |s| ==> s[i].date <= s[j].date
    requires s[|s| - 1].date <= target
    ensures FindClosest(s, target).value.date == s[|s| - 1].date
  {
  }
}

=== FILE: returns.dfy ===
/** The return calculation (`calculateReturns`, calculator.js:216-316): resolve
    the start and end prices, buy at the start price, replay the corporate
    actions dated within the window, value the final holding at the end price,
    and build the monthly growth chart from the same share timeline. */
module Returns {
  import opened Wrappers
  import opened Seqs
  import opened Domain
  import opened Resolver
  import opened Adjuster
  import opened Growth

  /** Milliseconds in a year of 365.25 days (calculator.js:285). */
  const MsPerYear: real := 31557600000.0

  /** Why a calculation is refused (calculator.js:218-239). */
  datatype CalcError =
    | InsufficientData
    | InvalidStartPrice(close: real)

  /** The result object of calculator.js:302-315, without the CAGR and
      fixed-deposit figures. */
  datatype Report = Report(
    initialInvestment: real,
    finalValue: real,
    absoluteReturn: real,
    returnPercentage: real,
    startDate: int,
    endDate: int,
    yearsDiff: real,
    startPrice: PricePoint,
    endPrice: PricePoint,
    growthData: seq<GrowthPoint>)

  /** The shares bought with `amount` at the start price (calculator.js:244). */
  function Purchased(amount: real, sp: PricePoint): (shares: real)
    requires sp.close > 0.0
    ensures shares * sp.close == amount
  {
    amount / sp.close
  }

  /** `shares` multiplied by a combined split or bonus factor. */
  function Scale(shares: real, factor: real): real {
    shares * factor
  }

  /** The value of `shares` at the close of sample `p`. */
  function ValueAt(shares: real, p: PricePoint): real {
    shares * p.close
  }

  /** `(gain / amount) * 100` (calculator.js:282). */
  function PercentOf(gain: real, amount: real): (pct: real)
    requires amount > 0.0
    ensures pct * amount == gain * 100.0
  {
    gain / amount * 100.0
  }

  /** `calculateReturns` for a series `data`, an amount the form has already
      checked to be positive (calculator.js:48), the window `start`..`end`, the
      stock's corporate actions and the host's local-time calendar. */
  function CalculateReturns(data: seq<PricePoint>, amount: real, start: int, end: int, actions: seq<Action>,
                            cal: int -> YearMonth): (r: Result<Report, CalcError>)
    requires amount > 0.0
    ensures r == Failure(InsufficientData) <==> |data| < 2
    ensures |data| >= 2 ==> (r.Failure? <==> FindClosest(data, start).value.close <= 0.0)
    ensures r.Success? ==>
      && r.value.startPrice in data && r.value.endPrice in data
      && (forall i :: 0 <= i < |data| ==> Distance(r.value.startPrice, start) <= Distance(data[i], start))
      && (forall i :: 0 <= i < |data| ==> Distance(r.value.endPrice, end) <= Distance(data[i], end))
      && r.value.startPrice.close > 0.0
      && r.value.initialInvestment == amount
      && r.value.startDate == start && r.value.endDate == end
      && r.value.absoluteReturn == r.value.finalValue - amount
      && r.value.returnPercentage == PercentOf(r.value.absoluteReturn, amount)
    ensures r.Success? ==>
      && r.value.startPrice == data[ClosestIndex(data, start)]
      && r.value.endPrice == data[ClosestIndex(data, end)]
      && r.value.yearsDiff * MsPerYear == (end - start) as real
      && r.value.growthData
         == GenerateGrowth(data, start, end,
                           BuildTimeline(start, Purchased(amount, r.value.startPrice), RelevantActions(actions, start, end)), cal)
  {
    if |data| < 2 then Failure(InsufficientData)
    else
      var sp := FindClosest(data, start).value;
      var ep := FindClosest(data, end).value;
      if sp.close <= 0.0 then Failure(InvalidStartPrice(sp.close))
      else
        var timeline := BuildTimeline(start, Purchased(amount, sp), RelevantActions(actions, start, end));
        Success(Summarise(amount, start, end, sp, ep, timeline, GenerateGrowth(data, start, end, timeline, cal)))
  }

  /** The figures of calculator.js:278-285 for a holding whose timeline ends
      in its final share count. */
  function Summarise(amount: real, start: int, end: int, sp: PricePoint, ep: PricePoint,
                     timeline: seq<Adjustment>, growth: seq<GrowthPoint>): (rep: Report)
    requires amount > 0.0
    requires |timeline| > 0
    ensures rep.finalValue == ValueAt(timeline[|timeline| - 1].shares, ep)
    ensures rep.absoluteReturn == rep.finalValue - amount
    ensures rep.returnPercentage == PercentOf(rep.absoluteReturn, amount)
    ensures rep.yearsDiff * MsPerYear == (end - start) as real
  {
    var finalValue := ValueAt(timeline[|timeline| - 1].shares, ep);
    var absoluteReturn := finalValue - amount;
    Report(amount, finalValue, absoluteReturn, PercentOf(absoluteReturn, amount), start, end,
           (end - start) as real / MsPerYear, sp, ep, growth)
  }

  /** The final value is the purchased shares, carried through every relevant
      action in date order, valued at the end price. */
  lemma FinalValueReplaysActions(data: seq<PricePoint>, amount: real, start: int, end: int, actions: seq<Action>,
                                 cal: int -> YearMonth, rep: Report)
    requires amount > 0.0
    requires CalculateReturns(data, amount, start, end, actions, cal) == Success(rep)
    ensures rep.finalValue
         == ValueAt(ApplyActions(Purchased(amount, rep.startPrice), RelevantActions(actions, start, end)), rep.endPrice)
  {
    FinalShares(start, Purchased(amount, rep.startPrice), RelevantActions(actions, start, end));
  }

  /** Closed form: the final value is the purchased shares times the product of
      the factors of the actions dated within the window (both ends included),
      times the end price. */
  lemma FinalValueClosedForm(data: seq<PricePoint>, amount: real, start: int, end: int, actions: seq<Action>,
                             cal: int -> YearMonth, rep: Report)
    requires amount > 0.0
    requires CalculateReturns(data, amount, start, end, actions, cal) == Success(rep)
    ensures rep.finalValue
         == ValueAt(Scale(Purchased(amount, rep.startPrice), FactorProduct(Within(actions, ActionDate, start, end))), rep.endPrice)
  {
    FinalValueReplaysActions(data, amount, start, end, actions, cal, rep);
    ReplayedValue(rep.finalValue, Purchased(amount, rep.startPrice), RelevantActions(actions, start, end),
                  Within(actions, ActionDate, start, end), rep.endPrice);
  }

  /** A value of shares replayed through some actions is the value of the
      shares scaled by the product of the factors of any reordering of them. */
  lemma ReplayedValue(value: real, shares: real, relevant: seq<Action>, within: seq<Action>, ep: PricePoint)
    requires value == ValueAt(ApplyActions(shares, relevant), ep)
    requires multiset(relevant) == multiset(within)
    ensures value == ValueAt(Scale(shares, FactorProduct(within)), ep)
  {
    FactorProductPermutation(relevant, within);
    ApplyActionsProduct(shares, relevant);
    MulEq(shares, FactorProduct(relevant), FactorProduct(within));
    assert ApplyActions(shares, relevant) == Scale(shares, FactorProduct(within));
  }

  /** With no action in the window the result is plain buy-and-hold: the
      purchased shares valued at the end price. */
  lemma NoActionsBuyAndHold(data: seq<PricePoint>, amount: real, start: int, end: int, actions: seq<Action>,
                            cal: int -> YearMonth, rep: Report)
    requires amount > 0.0
    requires CalculateReturns(data, amount, start, end, actions, cal) == Success(rep)
    requires forall i :: 0 <= i < |actions| ==> !(start <= actions[i].date <= end)
    ensures rep.finalValue == ValueAt(Purchased(amount, rep.startPrice), rep.endPrice)
  {
    WithinNone(actions, ActionDate, start, end);
    assert RelevantActions(actions, start, end) == [];
    FinalValueReplaysActions(data, amount, start, end, actions, cal, rep);
  }

  /** The return percentage is positive exactly when the holding grew, and zero
      exactly when it kept its value. */
  lemma ReturnSign(data: seq<PricePoint>, amount: real, start: int, end: int, actions: seq<Action>,
                   cal: int -> YearMonth, rep: Report)
    requires amount > 0.0
    requires CalculateReturns(data, amount, start, end, actions, cal) == Success(rep)
    ensures rep.returnPercentage > 0.0 <==> rep.finalValue > amount
    ensures rep.returnPercentage == 0.0 <==> rep.finalValue == amount
  {
    SignOfReport(rep, amount);
  }

  lemma SignOfReport(rep: Report, amount: real)
    requires amount > 0.0
    requires rep.absoluteReturn == rep.finalValue - amount
    requires rep.returnPercentage == PercentOf(rep.absoluteReturn, amount)
    ensures rep.returnPercentage > 0.0 <==> rep.finalValue > amount
    ensures rep.returnPercentage == 0.0 <==> rep.finalValue == amount
  {
    PercentSign(PercentOf(rep.absoluteReturn, amount), rep.absoluteReturn, amount);
  }

  /** A percentage of a positive amount has the sign of the gain. */
  lemma PercentSign(pct: real, gain: real, amount: real)
    requires amount > 0.0
    requires pct * amount == gain * 100.0
    ensures pct > 0.0 <==> gain > 0.0
    ensures pct == 0.0 <==> gain == 0.0
  {
    if pct > 0.0 {
      assert pct * amount > 0.0;
    } else if pct < 0.0 {
      assert pct * amount < 0.0;
    }
  }

  /** Listing the same actions in any order yields the same report, chart
      included: the final count and the count at every sample are products of
      factors, which do not depend on order. */
  lemma ActionOrderIrrelevant(data: seq<PricePoint>, amount: real, start: int, end: int, a: seq<Action>,
                              b: seq<Action>, cal: int -> YearMonth)
    requires amount > 0.0
    requires multiset(a) == multiset(b)
    ensures CalculateReturns(data, amount, start, end, a, cal) == CalculateReturns(data, amount, start, end, b, cal)
  {
    if |data| >= 2 && FindClosest(data, start).value.close > 0.0 {
      var sp, ep := FindClosest(data, start).value, FindClosest(data, end).value;
      var shares := Purchased(amount, sp);
      var ra, rb := RelevantActions(a, start, end), RelevantActions(b, start, end);
      WithinPermutation(a, b, ActionDate, start, end);
      PermutedTimelines(start, shares, ra, rb);
      SameCountsSameSummary(data, amount, start, end, sp, ep,
                            BuildTimeline(start, shares, ra), BuildTimeline(start, shares, rb), cal);
    }
  }

  /** Timelines built from two orderings of the same sorted in-window actions
      are sorted, end in the same count, and agree on the count at every date. */
  lemma PermutedTimelines(start: int, shares: real, a: seq<Action>, b: seq<Action>)
    requires SortedBy(a, ActionDate) && SortedBy(b, ActionDate)
    requires forall i :: 0 <= i < |a| ==> start <= a[i].date
    requires forall i :: 0 <= i < |b| ==> start <= b[i].date
    requires multiset(a) == multiset(b)
    ensures var ta, tb := BuildTimeline(start, shares, a), BuildTimeline(start, shares, b);
      && SortedBy(ta, AdjustmentDate) && SortedBy(tb, AdjustmentDate)
      && ta[|ta| - 1].shares == tb[|tb| - 1].shares
      && forall t :: SharesAt(ta, t) == SharesAt(tb, t)
  {
    FinalShares(start, shares, a);
    FinalShares(start, shares, b);
    ApplyActionsPermutation(shares, a, b);
    forall t
      ensures SharesAt(BuildTimeline(start, shares, a), t) == SharesAt(BuildTimeline(start, shares, b), t)
    {
      TimelineSharesPermutation(start, shares, a, b, t);
    }
    TimelineSorted(start, shares, a);
    TimelineSorted(start, shares, b);
  }

  /** Two sorted timelines with the same final count and the same count at every
      date give the same report. */
  lemma SameCountsSameSummary(data: seq<PricePoint>, amount: real, start: int, end: int, sp: PricePoint,
                              ep: PricePoint, ta: seq<Adjustment>, tb: seq<Adjustment>, cal: int -> YearMonth)
    requires amount > 0.0
    requires |ta| > 0 && |tb| > 0
    requires SortedBy(ta, AdjustmentDate) && SortedBy(tb, AdjustmentDate)
    requires ta[|ta| - 1].shares == tb[|tb| - 1].shares
    requires forall t :: SharesAt(ta, t) == SharesAt(tb, t)
    ensures Summarise(amount, start, end, sp, ep, ta, GenerateGrowth(data, start, end, ta, cal))
         == Summarise(amount, start, end, sp, ep, tb, GenerateGrowth(data, start, end, tb, cal))
  {
    GrowthSameShares(data, start, end, ta, tb, cal);
  }

  /** Two action lists that give every day the same actions in the same order
      produce the same report, chart included. */
  lemma SameDaysSameReport(data: seq<PricePoint>, amount: real, start: int, end: int, a: seq<Action>,
                           b: seq<Action>, cal: int -> YearMonth)
    requires amount > 0.0
    requires forall d :: Within(a, ActionDate, d, d) == Within(b, ActionDate, d, d)
    ensures CalculateReturns(data, amount, start, end, a, cal) == CalculateReturns(data, amount, start, end, b, cal)
  {
    RelevantDependsOnlyOnDays(a, b, start, end);
  }

  /** Every chart point values the purchased shares carried through exactly the
      relevant actions dated up to the point's date. */
  lemma GrowthSharesFollowActions(data: seq<PricePoint>, amount: real, start: int, end: int, actions: seq<Action>,
                                  cal: int -> YearMonth, rep: Report, j: nat)
    requires amount > 0.0
    requires CalculateReturns(data, amount, start, end, actions, cal) == Success(rep)
    requires j < |rep.growthData|
    ensures rep.growthData[j].shares
         == ApplyActions(Purchased(amount, rep.startPrice),
                         Within(RelevantActions(actions, start, end), ActionDate, start, rep.growthData[j].date))
  {
    var relevant := RelevantActions(actions, start, end);
    var tl := BuildTimeline(start, Purchased(amount, rep.startPrice), relevant);
    var inRange := Within(data, PriceDate, start, end);
    TimelineSorted(start, Purchased(amount, rep.startPrice), relevant);
    SortBySorted(tl, AdjustmentDate);
    ChartPointsAreSamples(inRange, tl, cal, |inRange|, j);
    TimelineSharesAt(start, Purchased(amount, rep.startPrice), relevant, rep.growthData[j].date);
  }
}

=== FILE: seqs.dfy ===
/** Order-preserving filtering and the stable sort that JavaScript's
    `Array.prototype.sort` performs (stable since ECMAScript 2019), keyed by an
    integer such as a timestamp, with the facts the engine needs about both. */
module Seqs {

  /** `Array.prototype.filter` with the predicate `lo <= key(x) <= hi`: the elements
      whose key lies in the closed interval, in their original order. With
      `lo == hi == d` it is the slice of elements whose key is exactly `d`. */
  function Within<T>(s: seq<T>, key: T -> int, lo: int, hi: int): (r: seq<T>)
    ensures |r| <= |s|
    ensures forall i :: 0 <= i < |r| ==> lo <= key(r[i]) <= hi
  {
    if |s| == 0 then []
    else (if lo <= key(s[0]) <= hi then [s[0]] else []) + Within(s[1..], key, lo, hi)
  }

  /** Filtering distributes over concatenation. */
  lemma {:induction false} WithinConcat<T>(a: seq<T>, b: seq<T>, key: T -> int, lo: int, hi: int)
    ensures Within(a + b, key, lo, hi) == Within(a, key, lo, hi) + Within(b, key, lo, hi)
  {
    if |a| == 0 {
      assert a + b == b;
    } else {
      assert (a + b)[0] == a[0];
      assert (a + b)[1..] == a[1..] + b;
      WithinConcat(a[1..], b, key, lo, hi);
    }
  }

  /** Nothing survives when no key lies in the interval. */
  lemma {:induction false} WithinNone<T>(s: seq<T>, key: T -> int, lo: int, hi: int)
    requires forall i :: 0 <= i < |s| ==> !(lo <= key(s[i]) <= hi)
    ensures Within(s, key, lo, hi) == []
  {
    if |s| > 0 {
      WithinNone(s[1..], key, lo, hi);
    }
  }

  /** Everything survives when every key lies in the interval. */
  lemma {:induction false} WithinAll<T>(s: seq<T>, key: T -> int, lo: int, hi: int)
    requires forall i :: 0 <= i < |s| ==> lo <= key(s[i]) <= hi
    ensures Within(s, key, lo, hi) == s
  {
    if |s| > 0 {
      WithinAll(s[1..], key, lo, hi);
      assert [s[0]] + s[1..] == s;
    }
  }

  /** The filter keeps every copy of a value whose key is in the interval and
      no copy of any other value. */
  lemma {:induction false} WithinCount<T>(s: seq<T>, key: T -> int, lo: int, hi: int, x: T)
    ensures multiset(Within(s, key, lo, hi))[x] == if lo <= key(x) <= hi then multiset(s)[x] else 0
  {
    if |s| > 0 {
      WithinCount(s[1..], key, lo, hi, x);
      assert s == [s[0]] + s[1..];
    }
  }

  /** An element survives exactly when it occurs in the input with its key in the interval. */
  lemma WithinMember<T>(s: seq<T>, key: T -> int, lo: int, hi: int, x: T)
    ensures x in Within(s, key, lo, hi) <==> x in s && lo <= key(x) <= hi
  {
    WithinCount(s, key, lo, hi, x);
    assert x in multiset(Within(s, key, lo, hi)) <==> x in Within(s, key, lo, hi);
    assert x in multiset(s) <==> x in s;
  }

  /** Filtering two permutations of each other yields two permutations of each other. */
  lemma WithinPermutation<T(!new)>(a: seq<T>, b: seq<T>, key: T -> int, lo: int, hi: int)
    requires multiset(a) == multiset(b)
    ensures multiset(Within(a, key, lo, hi)) == multiset(Within(b, key, lo, hi))
  {
    var ma, mb := multiset(Within(a, key, lo, hi)), multiset(Within(b, key, lo, hi));
    forall x
      ensures ma[x] == mb[x]
    {
      WithinCount(a, key, lo, hi, x);
      WithinCount(b, key, lo, hi, x);
    }
    assert ma == mb;
  }

  /** Filtering by two intervals in turn is filtering by their intersection. */
  lemma {:induction false} WithinWithin<T>(s: seq<T>, key: T -> int, lo1: int, hi1: int, lo2: int, hi2: int)
    ensures Within(Within(s, key, lo1, hi1), key, lo2, hi2)
            == Within(s, key, if lo1 < lo2 then lo2 else lo1, if hi1 < hi2 then hi1 else hi2)
  {
    if |s| > 0 {
      var h := if lo1 <= key(s[0]) <= hi1 then [s[0]] else [];
      WithinWithin(s[1..], key, lo1, hi1, lo2, hi2);
      WithinConcat(h, Within(s[1..], key, lo1, hi1), key, lo2, hi2);
      if |h| == 1 {
        assert h[1..] == [];
      }
    }
  }

  /** Keys never decrease along `s`. */
  predicate SortedBy<T>(s: seq<T>, key: T -> int) {
    forall i, j :: 0 <= i < j < |s| ==> key(s[i]) <= key(s[j])
  }

  /** A sorted sequence without its first element is sorted, and that first
      element has the least key. */
  lemma SortedTail<T>(s: seq<T>, key: T -> int)
    requires SortedBy(s, key) && |s| > 0
    ensures SortedBy(s[1..], key)
    ensures forall i :: 0 <= i < |s| ==> key(s[0]) <= key(s[i])
  {
  }

  /** A sorted sequence without its last element is sorted, and that last element
      has the greatest key. */
  lemma SortedInit<T>(s: seq<T>, init: seq<T>, x: T, key: T -> int)
    requires SortedBy(s, key) && s == init + [x]
    ensures SortedBy(init, key)
    ensures forall i :: 0 <= i < |init| ==> key(init[i]) <= key(x)
  {
    assert forall i :: 0 <= i < |init| ==> init[i] == s[i];
    assert s[|init|] == x;
  }

  /** The first element of a sorted sequence has the least key of all its members. */
  lemma SortedMember<T>(s: seq<T>, y: T, key: T -> int)
    requires SortedBy(s, key) && |s| > 0 && y in s
    ensures key(s[0]) <= key(y)
  {
  }

  /** A filter of a sorted sequence is sorted. */
  lemma {:induction false} WithinSorted<T>(s: seq<T>, key: T -> int, lo: int, hi: int)
    requires SortedBy(s, key)
    ensures SortedBy(Within(s, key, lo, hi), key)
  {
    if |s| > 0 {
      SortedTail(s, key);
      WithinSorted(s[1..], key, lo, hi);
      var tail := Within(s[1..], key, lo, hi);
      forall i | 0 <= i < |tail|
        ensures key(s[0]) <= key(tail[i])
      {
        WithinMember(s[1..], key, lo, hi, tail[i]);
      }
    }
  }

  /** A one-element sequence survives the filter exactly when its key is in the interval. */
  lemma WithinSingleton<T>(x: T, key: T -> int, lo: int, hi: int)
    ensures Within([x], key, lo, hi) == if lo <= key(x) <= hi then [x] else []
  {
    assert [x][1..] == [];
  }

  /** Inserts `x` into `s` just before the first element with a strictly greater
      key; on a sorted `s` that is after every element with an equal key. */
  function InsertBy<T>(x: T, s: seq<T>, key: T -> int): (r: seq<T>)
    ensures |r| == |s| + 1
  {
    if |s| == 0 then [x]
    else if key(x) < key(s[0]) then [x] + s
    else [s[0]] + InsertBy(x, s[1..], key)
  }

  /** Insertion adds exactly one copy of `x`. */
  lemma {:induction false} InsertByPermutation<T>(x: T, s: seq<T>, key: T -> int)
    ensures multiset(InsertBy(x, s, key)) == multiset(s) + multiset{x}
  {
    if |s| > 0 && key(s[0]) <= key(x) {
      InsertByPermutation(x, s[1..], key);
      assert s == [s[0]] + s[1..];
    }
  }

  /** Inserting into a sorted sequence keeps it sorted. */
  lemma {:induction false} InsertBySorted<T>(x: T, s: seq<T>, key: T -> int)
    requires SortedBy(s, key)
    ensures SortedBy(InsertBy(x, s, key), key)
  {
    if |s| > 0 && key(s[0]) <= key(x) {
      var tail := s[1..];
      SortedTail(s, key);
      InsertBySorted(x, tail, key);
      var rest := InsertBy(x, tail, key);
      forall i | 0 <= i < |rest|
        ensures key(s[0]) <= key(rest[i])
      {
        InsertByPermutation(x, tail, key);
        assert rest[i] in multiset(rest);
        assert rest[i] in multiset(tail) + multiset{x};
        if rest[i] in multiset(tail) {
          var j :| 0 <= j < |tail| && tail[j] == rest[i];
          assert tail[j] == s[j + 1];
        }
      }
    }
  }

  /** Stable insertion sort by `key`: the order the source's
      `sort((a, b) => key(a) - key(b))` produces. */
  function SortBy<T>(s: seq<T>, key: T -> int): (r: seq<T>)
    ensures |r| == |s|
    ensures multiset(r) == multiset(s)
  {
    if |s| == 0 then []
    else
      var init := s[..|s| - 1];
      assert s == init + [s[|s| - 1]];
      InsertByPermutation(s[|s| - 1], SortBy(init, key), key);
      InsertBy(s[|s| - 1], SortBy(init, key), key)
  }

  /** The sort's output is ordered by key. */
  lemma {:induction false} SortBySorts<T>(s: seq<T>, key: T -> int)
    ensures SortedBy(SortBy(s, key), key)
  {
    if |s| > 0 {
      var init := s[..|s| - 1];
      SortBySorts(init, key);
      InsertBySorted(s[|s| - 1], SortBy(init, key), key);
    }
  }

  /** Inserting an element whose key is not below any other appends it. */
  lemma {:induction false} InsertByLast<T>(x: T, s: seq<T>, key: T -> int)
    requires SortedBy(s, key)
    requires forall i :: 0 <= i < |s| ==> key(s[i]) <= key(x)
    ensures InsertBy(x, s, key) == s + [x]
  {
    if |s| > 0 {
      var tail := s[1..];
      SortedTail(s, key);
      assert forall i :: 0 <= i < |tail| ==> key(tail[i]) <= key(x) by {
        assert forall i :: 0 <= i < |tail| ==> tail[i] == s[i + 1];
      }
      InsertByLast(x, tail, key);
      calc {
        InsertBy(x, s, key);
        [s[0]] + InsertBy(x, tail, key);
        [s[0]] + (tail + [x]);
        { assert [s[0]] + tail == s; }
        s + [x];
      }
    }
  }

  /** Sorting an already sorted sequence leaves it as it is. */
  lemma {:induction false} SortBySorted<T>(s: seq<T>, key: T -> int)
    requires SortedBy(s, key)
    ensures SortBy(s, key) == s
  {
    if |s| > 0 {
      var init := s[..|s| - 1];
      var x := s[|s| - 1];
      assert s == init + [x];
      SortedInit(s, init, x, key);
      SortBySorted(init, key);
      InsertByLast(x, init, key);
      calc {
        SortBy(s, key);
        InsertBy(x, SortBy(init, key), key);
        InsertBy(x, init, key);
        init + [x];
      }
    }
  }

  /** Inserting `x` adds it after every element that shares its key. */
  lemma {:induction false} InsertByStable<T>(x: T, s: seq<T>, key: T -> int, d: int)
    requires SortedBy(s, key)
    ensures Within(InsertBy(x, s, key), key, d, d)
            == Within(s, key, d, d) + (if key(x) == d then [x] else [])
  {
    if |s| == 0 {
      WithinSingleton(x, key, d, d);
      assert InsertBy(x, s, key) == [x];
      assert Within(s, key, d, d) == [];
    } else if key(x) < key(s[0]) {
      InsertByStableFront(x, s, key, d);
    } else {
      SortedTail(s, key);
      InsertByStable(x, s[1..], key, d);
      InsertByStableStep(x, s, key, d);
    }
  }

  /** Removing the element at `j` takes one copy of it out of the multiset. */
  lemma MultisetRemove<T>(s: seq<T>, j: nat)
    requires j < |s|
    ensures multiset(s) == multiset(s[..j] + s[j + 1..]) + multiset{s[j]}
  {
    assert s == s[..j] + [s[j]] + s[j + 1..];
  }

  /** The same element can be cancelled from both sides of a multiset equation. */
  lemma MultisetCancel<T>(m1: multiset<T>, m2: multiset<T>, x: T)
    requires m1 + multiset{x} == m2 + multiset{x}
    ensures m1 == m2
  {
    forall y: T
      ensures m1[y] == m2[y]
    {
      assert (m1 + multiset{x})[y] == (m2 + multiset{x})[y];
    }
  }

  /** The case of `InsertByStable` where `x` goes in front. */
  lemma InsertByStableFront<T>(x: T, s: seq<T>, key: T -> int, d: int)
    requires SortedBy(s, key) && |s| > 0 && key(x) < key(s[0])
    ensures Within(InsertBy(x, s, key), key, d, d)
            == Within(s, key, d, d) + (if key(x) == d then [x] else [])
  {
    WithinSingleton(x, key, d, d);
    assert InsertBy(x, s, key) == [x] + s;
    WithinConcat([x], s, key, d, d);
    if key(x) == d {
      SortedTail(s, key);
      WithinNone(s, key, d, d);
    }
  }

  /** The case of `InsertByStable` where `x` goes after the head. */
  lemma InsertByStableStep<T>(x: T, s: seq<T>, key: T -> int, d: int)
    requires |s| > 0 && key(s[0]) <= key(x)
    requires Within(InsertBy(x, s[1..], key), key, d, d)
             == Within(s[1..], key, d, d) + (if key(x) == d then [x] else [])
    ensures Within(InsertBy(x, s, key), key, d, d)
            == Within(s, key, d, d) + (if key(x) == d then [x] else [])
  {
    assert InsertBy(x, s, key) == [s[0]] + InsertBy(x, s[1..], key);
    WithinConcat([s[0]], InsertBy(x, s[1..], key), key, d, d);
    WithinHead(s, key, d, d);
    ConcatAssoc(Within([s[0]], key, d, d), Within(s[1..], key, d, d), if key(x) == d then [x] else []);
  }

  /** Filtering splits off the head of a sequence. */
  lemma WithinHead<T>(s: seq<T>, key: T -> int, lo: int, hi: int)
    requires |s| > 0
    ensures Within(s, key, lo, hi) == Within([s[0]], key, lo, hi) + Within(s[1..], key, lo, hi)
  {
    assert [s[0]] + s[1..] == s;
    WithinConcat([s[0]], s[1..], key, lo, hi);
  }

  lemma ConcatAssoc<T>(a: seq<T>, b: seq<T>, c: seq<T>)
    ensures a + (b + c) == (a + b) + c
  {
  }

  /** The sort is stable: the elements sharing any one key keep their input order. */
  lemma {:induction false} SortByStable<T>(s: seq<T>, key: T -> int, d: int)
    ensures Within(SortBy(s, key), key, d, d) == Within(s, key, d, d)
  {
    if |s| > 0 {
      var init := s[..|s| - 1];
      var x := s[|s| - 1];
      var hx := if key(x) == d then [x] else [];
      SortByStable(init, key, d);
      SortBySorts(init, key);
      InsertByStable(x, SortBy(init, key), key, d);
      assert s == init + [x];
      WithinConcat(init, [x], key, d, d);
      WithinSingleton(x, key, d, d);
      calc {
        Within(SortBy(s, key), key, d, d);
        Within(InsertBy(x, SortBy(init, key), key), key, d, d);
        Within(SortBy(init, key), key, d, d) + hx;
        Within(init, key, d, d) + hx;
        Within(init + [x], key, d, d);
      }
    }
  }

  /** A sorted sequence is determined by its per-key slices: two sorted sequences
      that agree, for every key, on the elements with that key are equal. */
  lemma {:induction false} SortedDeterminedBySlices<T>(a: seq<T>, b: seq<T>, key: T -> int)
    requires SortedBy(a, key) && SortedBy(b, key)
    requires forall d :: Within(a, key, d, d) == Within(b, key, d, d)
    ensures a == b
    decreases |a|
  {
    if |a| > 0 {
      WithinMember(a, key, key(a[0]), key(a[0]), a[0]);
      WithinMember(b, key, key(a[0]), key(a[0]), a[0]);
    }
    if |b| > 0 {
      WithinMember(b, key, key(b[0]), key(b[0]), b[0]);
      WithinMember(a, key, key(b[0]), key(b[0]), b[0]);
    }
    if |a| > 0 && |b| > 0 {
      SameHead(a, b, key);
      SortedTail(a, key);
      SortedTail(b, key);
      forall d
        ensures Within(a[1..], key, d, d) == Within(b[1..], key, d, d)
      {
        TailSlice(a, b, key, d);
      }
      SortedDeterminedBySlices(a[1..], b[1..], key);
      assert a == [a[0]] + a[1..] && b == [b[0]] + b[1..];
    }
  }

  /** Two sorted sequences whose slices agree at the keys of both their heads
      start with the same element. */
  lemma SameHead<T>(a: seq<T>, b: seq<T>, key: T -> int)
    requires SortedBy(a, key) && SortedBy(b, key) && |a| > 0 && |b| > 0
    requires Within(a, key, key(a[0]), key(a[0])) == Within(b, key, key(a[0]), key(a[0]))
    requires Within(a, key, key(b[0]), key(b[0])) == Within(b, key, key(b[0]), key(b[0]))
    ensures a[0] == b[0]
  {
    var da, db := key(a[0]), key(b[0]);
    WithinMember(b, key, db, db, b[0]);
    WithinMember(a, key, db, db, b[0]);
    WithinMember(a, key, da, da, a[0]);
    WithinMember(b, key, da, da, a[0]);
    SortedMember(a, b[0], key);
    SortedMember(b, a[0], key);
    assert da == db;
    assert Within(a, key, da, da)[0] == a[0];
    assert Within(b, key, da, da)[0] == b[0];
  }

  /** Two sequences with the same head and the same filtered image still have the
      same filtered image once the head is removed. */
  lemma TailSlice<T>(a: seq<T>, b: seq<T>, key: T -> int, d: int)
    requires |a| > 0 && |b| > 0 && a[0] == b[0]
    requires Within(a, key, d, d) == Within(b, key, d, d)
    ensures Within(a[1..], key, d, d) == Within(b[1..], key, d, d)
  {
    var h := if key(a[0]) == d then [a[0]] else [];
    assert Within(a, key, d, d) == h + Within(a[1..], key, d, d);
    assert Within(b, key, d, d) == h + Within(b[1..], key, d, d);
    assert Within(a[1..], key, d, d) == Within(a, key, d, d)[|h|..];
    assert Within(b[1..], key, d, d) == Within(b, key, d, d)[|h|..];
  }
}

=== FILE: text.dfy ===
/** The JavaScript string operations the CSV reader relies on: `trim`, `split`
    on a one-character separator or a character class, and `Array.prototype.indexOf`
    over the resulting strings. */
module Text {

  /** The code points `String.prototype.trim` removes: ECMAScript WhiteSpace
      (including every Unicode space separator) and LineTerminator. */
  predicate IsTrimmable(c: char) {
    || c == ' ' || c == '\t' || c == '\n' || c == '\r'
    || c == '\U{000B}' || c == '\U{000C}' || c == '\U{00A0}' || c == '\U{1680}'
    || ('\U{2000}' <= c <= '\U{200A}')
    || c == '\U{2028}' || c == '\U{2029}' || c == '\U{202F}' || c == '\U{205F}'
    || c == '\U{3000}' || c == '\U{FEFF}'
  }

  /** Drops leading trimmable characters. */
  function TrimStart(s: string): (r: string)
    ensures |r| <= |s| && r == s[|s| - |r|..]
    ensures |r| > 0 ==> !IsTrimmable(r[0])
    ensures forall i :: 0 <= i < |s| - |r| ==> IsTrimmable(s[i])
  {
    if |s| > 0 && IsTrimmable(s[0]) then TrimStart(s[1..]) else s
  }

  /** Drops trailing trimmable characters. */
  function TrimEnd(s: string): (r: string)
    ensures |r| <= |s| && r == s[..|r|]
    ensures |r| > 0 ==> !IsTrimmable(r[|r| - 1])
    ensures forall i :: |r| <= i < |s| ==> IsTrimmable(s[i])
  {
    if |s| > 0 && IsTrimmable(s[|s| - 1]) then TrimEnd(s[..|s| - 1]) else s
  }

  /** Length of the run of trimmable characters that opens `s`. */
  function LeadLength(s: string): (n: nat)
    ensures n <= |s|
  {
    |s| - |TrimStart(s)|
  }

  /** `String.prototype.trim`: `s` without its leading and trailing trimmable
      characters; whatever is left neither starts nor ends with one. */
  function Trim(s: string): (r: string)
    ensures |r| > 0 ==> !IsTrimmable(r[0]) && !IsTrimmable(r[|r| - 1])
    ensures LeadLength(s) + |r| <= |s| && r == s[LeadLength(s)..LeadLength(s) + |r|]
    ensures forall k :: 0 <= k < LeadLength(s) ==> IsTrimmable(s[k])
    ensures forall k :: LeadLength(s) + |r| <= k < |s| ==> IsTrimmable(s[k])
  {
    var t := TrimStart(s);
    var r := TrimEnd(t);
    TrimSlices(s, t, r);
    r
  }

  lemma TrimSlices(s: string, t: string, r: string)
    requires |t| <= |s| && t == s[|s| - |t|..]
    requires |r| <= |t| && r == t[..|r|]
    requires forall i :: |r| <= i < |t| ==> IsTrimmable(t[i])
    ensures r == s[|s| - |t|..|s| - |t| + |r|]
    ensures forall k :: |s| - |t| + |r| <= k < |s| ==> IsTrimmable(s[k])
  {
    var n := |s| - |t|;
    forall k | n + |r| <= k < |s|
      ensures IsTrimmable(s[k])
    {
      assert s[k] == t[k - n];
    }
  }

  /** Trimming a string a second time changes nothing. */
  lemma TrimIdempotent(s: string)
    ensures Trim(Trim(s)) == Trim(s)
  {
    var r := Trim(s);
    if |r| > 0 {
      assert TrimStart(r) == r;
      assert TrimEnd(r) == r;
    }
  }

  /** Number of characters of `s` that belong to `seps`. */
  function SepCount(s: string, seps: set<char>): nat {
    if |s| == 0 then 0 else (if s[0] in seps then 1 else 0) + SepCount(s[1..], seps)
  }

  /** `String.prototype.split` with a one-character separator (`seps == {c}`) or a
      character-class pattern such as `/[-/]/`: the text between consecutive
      separators, empty parts included, so `""` splits into `[""]`. */
  function Split(s: string, seps: set<char>): (parts: seq<string>)
    ensures |parts| == SepCount(s, seps) + 1
    ensures forall k :: 0 <= k < |parts| ==> forall c :: c in parts[k] ==> c !in seps
  {
    if |s| == 0 then [""]
    else
      var rest := Split(s[1..], seps);
      if s[0] in seps then [""] + rest
      else [[s[0]] + rest[0]] + rest[1..]
  }

  /** `Array.prototype.join` with a one-character separator. */
  function Join(parts: seq<string>, sep: char): string
    requires |parts| > 0
  {
    if |parts| == 1 then parts[0] else parts[0] + [sep] + Join(parts[1..], sep)
  }

  /** Splitting on a single character and joining the parts back with that
      character restores the original text. */
  lemma {:induction false} SplitJoin(s: string, sep: char)
    ensures Join(Split(s, {sep}), sep) == s
  {
    if |s| > 0 {
      var rest := Split(s[1..], {sep});
      SplitJoin(s[1..], sep);
      if s[0] == sep {
        assert Split(s, {sep}) == [""] + rest;
        assert ([""] + rest)[1..] == rest;
      } else {
        var parts := [[s[0]] + rest[0]] + rest[1..];
        assert Split(s, {sep}) == parts;
        if |rest| > 1 {
          assert parts[1..] == rest[1..];
          assert Join(rest, sep) == rest[0] + [sep] + Join(rest[1..], sep);
        }
      }
    }
  }

  /** A text free of separators splits into itself alone. */
  lemma {:induction false} SplitNoSeparator(a: string, seps: set<char>)
    requires forall c :: c in a ==> c !in seps
    ensures Split(a, seps) == [a]
  {
    if |a| > 0 {
      assert a[0] in a;
      forall c | c in a[1..] ensures c !in seps {
        assert c in a;
      }
      SplitNoSeparator(a[1..], seps);
      assert [a[0]] + a[1..] == a;
    }
  }

  /** A separator-free lead `a` followed by a separator becomes the first part,
      and the remainder splits on its own. */
  lemma {:induction false} SplitLeadingPart(a: string, c: char, b: string, seps: set<char>)
    requires c in seps
    requires forall x :: x in a ==> x !in seps
    ensures Split(a + [c] + b, seps) == [a] + Split(b, seps)
  {
    var s := a + [c] + b;
    if |a| == 0 {
      assert s[1..] == b;
    } else {
      assert a[0] in a;
      forall x | x in a[1..] ensures x !in seps {
        assert x in a;
      }
      SplitLeadingPart(a[1..], c, b, seps);
      assert s[1..] == a[1..] + [c] + b;
      assert [a[0]] + a[1..] == a;
    }
  }

  /** `Array.prototype.indexOf` on strings: the first position holding `x`, or -1. */
  function IndexOf(s: seq<string>, x: string): (r: int)
    ensures -1 <= r
    ensures r == -1 <==> x !in s
    ensures 0 <= r ==> r < |s| && s[r] == x && x !in s[..r]
  {
    if |s| == 0 then -1
    else if s[0] == x then 0
    else
      var k := IndexOf(s[1..], x);
      if k == -1 then -1
      else
        assert s[..k + 1] == [s[0]] + s[1..][..k];
        k + 1
  }
}

=== FILE: wrappers.dfy ===
/** Failure-carrying datatypes shared by the engine: an optional value (JavaScript's
    `null`, or `NaN` from a host parser) and a success-or-error result (a thrown Error). */
module Wrappers {

  datatype Option<+T> = None | Some(value: T)

  datatype Result<+T, +E> = Success(value: T) | Failure(error: E)
}
